=== FILE: README.md ===
# Birthday email pipeline — a Dafny model

This project models the record-level logic of a daily birthday-email pipeline. The
pipeline runs in this order:

1. **Extract.** Choose a reader for the input file from an explicit type or from the
   file's extension.
2. **Transform.** Clean the birthday table. Cells are trimmed, rows missing a name,
   email or date of birth are dropped, and names are title-cased. Dates of birth are
   parsed with five explicit formats and then an automatic fallback. Rows with an
   invalid address are dropped, and so are rows whose address appeared earlier and
   rows whose date did not parse.
3. **Check.** Pick the rows whose birth month and day are today's and build the list
   of names and addresses.
4. **Send.** Guard against an empty list and missing SMTP credentials, then mail
   everyone, counting successes and failures.
5. **Summarise.** Report the counts handed on between the steps.

Tables are sequences of rows, and a missing cell is `None`. Every step is a pure
function of its inputs. Three things that the code reads from outside become
parameters:

- the clock becomes `today`;
- the dataframe library's automatic date guessing becomes the oracle `auto`;
- the SMTP exchange becomes the oracle `deliver`.

Modules:

- `Wrappers` holds `Option` and `Result`.
- `Seqs` holds the subsequence, filter, map and count helpers and their lemmas.
- `Text` holds strip, ASCII case, title case, and split/join.
- `Dates` holds calendar dates, the timestamp range, the format tokens and the
  parser. `DateFacts` and `DateRender` state facts about them.
- `EmailPattern` holds the address regular expression.
- `Cleaner` and `CleanerFacts` cover the transform step.
- `Matcher` covers the birthday check.
- `Mailer` covers the sending loop.
- `Dag` covers the send step's guards, the summary and the composed daily run.
- `Extract` covers reader selection.

Facts about the cleaning code that the model keeps:

- Addresses are compared and kept as written; they are not lower-cased.
- Deduplication compares addresses exactly, including case.
- Only leading and trailing whitespace is removed; inner runs stay.
- An empty or blank name is still a present value and is not rejected.
- Dropped rows are simply left out; no reason is recorded.
- The transform step calls `validate_email` with `drop_invalid=True`, so invalid rows are dropped rather than marked.

## Model

| member | source | states |
|---|---|---|
| Text.Strip | scripts/transform.py:24 | The result is the input with its maximal leading and trailing whitespace runs removed. A non-empty result starts and ends with a non-space. |
| Text.StripIdempotent | scripts/transform.py:19-25 | Trimming an already trimmed cell changes nothing. |
| Text.Title | scripts/transform.py:160 | A cased letter after a non-letter becomes upper case. A cased letter after a letter becomes lower case. Other characters are unchanged. Lower-casing the result equals lower-casing the input. |
| Text.TitleIdempotent | scripts/transform.py:160 | Title-casing twice is the same as title-casing once. |
| Cleaner.TrimWhitespace | scripts/transform.py:19-25 | Row count and order are kept, and missing cells stay missing. Every present cell becomes the stripped original and has no whitespace at either end. |
| Cleaner.HandleMissingValues | scripts/transform.py:134-149 | The result is an order-preserving subsequence. It keeps exactly the rows with name, email and dob all present, each with its original multiplicity. |
| Cleaner.StandardizeNames | scripts/transform.py:151-162 | Row count, order, email and dob are kept. Every present name becomes its title-cased form, and a missing name stays missing. |
| CleanerFacts.StandardizeNamesIdempotent | scripts/transform.py:160 | Standardising names twice is the same as standardising them once. |
| CleanerFacts.BlankCellCountsAsPresent | scripts/transform.py:143 | A name of only spaces is stripped to "" and still counts as present, so the row survives the missing-value drop. |
| Cleaner.ParseDob | scripts/transform.py:96-101 | No row is dropped, and each row keeps its record. Each row's date is `ParseDate` of its own dob. A date only comes from a present dob and lies in the timestamp range. |
| Dates.ParseWithFormat | scripts/transform.py:87 | One explicit format gives NaT exactly for "" and the NaT/NaN spellings. It reads a date only from a string of exactly three separator-delimited tokens, and that date is a valid day in the timestamp range. Any other string raises in the model. The library instead reads the clock for "now" and "today" (see Left out). |
| Dates.ParseFirst | scripts/transform.py:85-94 | The first format that does not raise decides the result, whether a timestamp or NaT. When every format raises, the automatic parser decides. |
| Dates.ParseCell | scripts/transform.py:82-94 | A missing cell gives None. A blank or NaT-spelled string gives NaT at the first format, whatever the automatic parser would say. Any other string gives NaT only if every format raised and the automatic parser gave NaT. |
| Dates.ParseDate | scripts/transform.py:97-101 | A row has a date exactly when its `parse_date` value is a timestamp. The date has month 1-12 and a day within that month, which makes the month and day columns meaningful. |
| DateFacts.AcceptedShape | scripts/transform.py:80 | A string that a format reads a date from consists of three pieces of the right token shapes. |
| DateFacts.AcceptedCharacters | scripts/transform.py:80 | A string that a format reads a date from contains only digits, spaces and that format's separator. |
| DateFacts.SeparatorsExclude | scripts/transform.py:80 | When a '/' format reads a date from a string, every '-' format raises on it, and the other way round. |
| DateFacts.FirstAcceptingDecides | scripts/transform.py:85-89 | If format k is the first not to raise on a string, the cleaner's value equals format k's result. |
| DateFacts.NoFormatAccepts | scripts/transform.py:90-94 | If every explicit format raises on a string, the automatic parser's answer is taken. |
| DateFacts.DayFirstWins | scripts/transform.py:80-89 | Whenever day-first with '/' reads a date, it decides, because month-first with '/' comes after it. |
| DateFacts.AmbiguousSlashDate | scripts/transform.py:80-89 | "03/04/2000" is read as 3 April 2000. |
| DateFacts.IsoDate | scripts/transform.py:80-89 | "1990-01-15" is read as 15 January 1990. |
| DateFacts.DayMonthYearDate | scripts/transform.py:80-89 | "15/01/1990" is read as 15 January 1990. |
| DateFacts.ImpossibleDateFallsThrough | scripts/transform.py:82-94 | Every explicit format raises on "2023-02-30", so the automatic parser decides. |
| DateRender.Pad4 | scripts/transform.py:80 | A year of 1000-9999 written with four digits is a `%Y` token whose value is that year. |
| DateRender.RenderThenParse | scripts/transform.py:80-87 | Writing any representable date in any of the five formats and reading it back with that format gives the same date. |
| DateRender.IsoRoundTrip | scripts/transform.py:80-89 | A date written `%Y-%m-%d` is read back by the cleaner as itself. |
| DateRender.DayFirstRoundTrip | scripts/transform.py:80-89 | A date written `%d/%m/%Y` is read back by the cleaner as itself. |
| DateRender.MonthFirstSlashMisread | scripts/transform.py:80-89 | A date written `%m/%d/%Y` whose day is at most 12 is read back with month and day exchanged, when the exchanged date is also representable. |
| DateRender.MonthFirstDashRead | scripts/transform.py:80-89 | A date written `%m-%d-%Y` whose day is above 12 is rejected by the first four formats and read back by the fifth as itself. |
| DateRender.MonthFirstDashMisread | scripts/transform.py:80-89 | A date written `%m-%d-%Y` whose day is at most 12 is read by `%d-%m-%Y`, which comes first, with month and day exchanged, when the exchanged date is also representable. |
| EmailPattern.CheckAddress | scripts/transform.py:41 | The decision procedure is true exactly when the whole string matches the address pattern. The pattern is a local part, '@', a domain, '.', and at least two letters. |
| EmailPattern.Matches | scripts/transform.py:48 | A match from the start succeeds exactly on a full match, or on a full match followed by one final newline. |
| EmailPattern.StrippedMatchesExactly | scripts/transform.py:41-48 | For a trimmed cell, matching is exactly a full match. |
| EmailPattern.NoAtSignInvalid | scripts/transform.py:41 | A string without '@' never matches. |
| EmailPattern.ExampleAddressValid | scripts/transform.py:41 | "john@example.com" matches. |
| Cleaner.ValidateEmails | scripts/transform.py:47-54 | The result is an order-preserving subsequence. It keeps exactly the rows whose present address matches, each with its original multiplicity. |
| Cleaner.RemoveDuplicates | scripts/transform.py:111-131 | The result is an order-preserving subsequence of the rows. No address occurs in it twice, and every address of the input still occurs. CleanerFacts.RemoveDuplicatesKeepsFirsts says which row of each address is kept. |
| CleanerFacts.RemoveDuplicatesKeepsFirsts | scripts/transform.py:122-127 | Dropping duplicates equals the reference definition, which keeps each row that has no earlier row with the same address, in order. |
| CleanerFacts.DedupAppend | scripts/transform.py:127 | Deduplicating a concatenation equals deduplicating the first part, then the second part minus the addresses already seen. |
| CleanerFacts.FirstIsKept | scripts/transform.py:127 | A row with no earlier row of the same address is kept. |
| Cleaner.DropUnparsed | scripts/transform.py:188-194 | The result is an order-preserving subsequence. It keeps exactly the rows with a parsed date, each with its original multiplicity. |
| Cleaner.Transform | scripts/transform.py:165-198 | The repaired pipeline. The cleaned table is an order-preserving subsequence of the dated rows with a valid address. Every row has a valid address and a parsed date, and no address occurs twice. CleanerFacts.TransformIsPreparedSubseq and TransformClean relate it to the input rows. |
| Cleaner.TransformAsWritten | scripts/transform.py:96-101 | When the step as written succeeds, it gives the repaired table. When it fails, it is the datetime-accessor error. An empty input always fails. CleanerFacts.TransformAsWrittenDiffers gives the exact failure condition. |
| CleanerFacts.TransformIsPreparedSubseq | scripts/transform.py:181-194 | The cleaned table is an order-preserving subsequence of the input rows, each trimmed, title-cased and dated. |
| CleanerFacts.TransformClean | scripts/transform.py:181-194 | Every cleaned row has all critical fields, a matching address and a representable parsed date. No two cleaned rows share an address. |
| CleanerFacts.TransformAddresses | scripts/transform.py:185-191 | For the first row with a given valid address, that address is in the cleaned table exactly when that row's date parsed. |
| CleanerFacts.DuplicateOfUnparsedIsLost | scripts/transform.py:186-191 | A later row with a good date is lost when an earlier row with the same address has an unparseable date. Deduplication runs before the unparsed-date drop. |
| CleanerFacts.TransformEmptyWithoutDates | scripts/transform.py:188-194 | When no row's date parses, the cleaned table is empty. |
| CleanerFacts.TransformAsWrittenDiffers | scripts/transform.py:96-101 | The step as written succeeds with the repaired step's table unless every row's `parse_date` value is None. In that case it raises, and the repaired step returns an empty table. |
| CleanerFacts.NullDobsGiveEmptyTable | scripts/transform.py:87-101 | When every remaining dob is blank or spells NaT, the step as written does not raise and returns the empty table. |
| CleanerFacts.EmptyInputRaises | scripts/transform.py:100 | An empty input table raises as written, and the repaired step returns an empty table. |
| Matcher.TodaysRows | dags/birthday_email_dag.py:134-142 | The result is an order-preserving subsequence of the table. A row is in it exactly when the month and day columns exist and the row's parsed month and day are today's. Such a row keeps its multiplicity, and every other row occurs zero times. |
| Matcher.CheckTodaysBirthdays | dags/birthday_email_dag.py:134-158 | The pushed count is the list's length and at most the table's size. The list is today's rows, in table order, one entry per row, each mapped to its name and email. A person is listed exactly when some row born today carries that name and email. |
| Matcher.BirthdayCountIsCount | dags/birthday_email_dag.py:158 | The birthday count equals the number of rows whose birth month and day are today's. |
| Matcher.CheckIgnoresYear | dags/birthday_email_dag.py:128-138 | Two run dates with the same month and day give the same list. |
| Matcher.LeapDayMissedInCommonYears | dags/birthday_email_dag.py:135-139 | A person born on 29 February is never matched on a date of a common year. |
| Matcher.MissingColumnsGiveNobody | dags/birthday_email_dag.py:140-142 | Without the month and day columns the list is empty and the count is 0. |
| Matcher.JanuaryFifteenth | dags/birthday_email_dag.py:134-153 | Given two rows born on 15 January and one born on 20 May, a run on 15 January lists the two, in table order. |
| Mailer.RecipientOf | scripts/email_utils.py:137-143 | No message is built exactly when the address is missing or empty. Otherwise the message goes to that address and greets the name, or "Friend" when the name is absent. |
| Mailer.Attempts | scripts/email_utils.py:136-146 | The messages built, in list order: at most one per entry, and each to a non-empty address. |
| Mailer.Successes | scripts/email_utils.py:145-153 | The number of entries whose built message the delivery reports as sent. It never exceeds the list length. Mailer.SuccessesAtMostAttempts bounds it by the attempts. |
| Mailer.SuccessesAtMostAttempts | scripts/email_utils.py:145-153 | Delivered messages never outnumber delivery attempts. |
| Mailer.MailAll | scripts/email_utils.py:132-156 | The success and failure counts add up to the number of listed people. Successes never exceed the messages built. Every entry without a message is among the failures. |
| Mailer.SendBirthdayEmails | scripts/email_utils.py:122-156 | The loop returns `MailAll`'s counts, whose sum is the list's length. Messages are built for exactly the `Attempts` recipients, in list order. |
| Mailer.AttemptsAreListed | scripts/email_utils.py:136-146 | Every message is built for a listed person with a non-empty address. |
| Mailer.AllDelivered | scripts/email_utils.py:136-153 | When every delivery succeeds, the successes are the attempts and the failures are exactly the entries without an address. |
| Mailer.NoAddressNoSuccess | scripts/email_utils.py:140-143 | A list in which nobody has an address gives no attempts, 0 successes and all failures. |
| Dag.SendResults | dags/birthday_email_dag.py:173-205 | Every listed person is counted once. A message appears exactly when the step returns early. With no birthdays or no credentials nothing succeeds. Otherwise the successes are the mailer's. |
| Dag.SendStepAsWritten | dags/birthday_email_dag.py:173-205 | The results are stored for the summary exactly when the mailer is called, and then equal the returned results. |
| Dag.SendStep | dags/birthday_email_dag.py:173-205 | The repaired step returns what the step as written returns. It always stores counts that cover every listed person. Its stored value equals the as-written one exactly when the mailer is called. |
| Dag.RecordsRemovedAsWritten | dags/birthday_email_dag.py:244 | With both counts present, the figure as written equals the repaired one exactly when the counts are equal or both are non-zero. With a count missing, the two agree. |
| Dag.RecordsRemoved | dags/birthday_email_dag.py:244 | The repaired removed figure: with both counts present, the cleaned count plus the removed figure is the extracted count, zero counts included. |
| Dag.RemovedFigureCounts | dags/birthday_email_dag.py:244 | With both counts present the repaired figure is the difference. As written, a cleaned count of 0 always reports 0. |
| Dag.AllRemovedReportedAsNone | dags/birthday_email_dag.py:244 | With 5 extracted and 0 cleaned, the summary as written reports 0 removed instead of 5. |
| Dag.LogSummaryAsWritten | dags/birthday_email_dag.py:208-259 | The summary as written. Its removed figure is the truthiness-tested one. Sent and failed are the stored results, or 0 and 0 when no results were stored. |
| Dag.LogSummary | dags/birthday_email_dag.py:217-251 | The repaired summary agrees with the summary as written on every figure except the removed one, which is the repaired figure. It reports the stored sent and failed counts. |
| Dag.UnconfiguredFailuresLost | dags/birthday_email_dag.py:185-190 | With birthdays but no credentials, the step returns every entry as failed. The summary as written reports 0 failed, and the repaired run reports them all. |
| Dag.DailyRun | dags/birthday_email_dag.py:299 | The five tasks in their chained order: extract, transform, check, send, summarise. The summary always holds a birthday count, and sent plus failed equals it. |
| Dag.DailyRunAccounts | dags/birthday_email_dag.py:244-251 | In the repaired daily run, sent plus failed equals the birthday count. The removed figure is the number of input rows cleaned away and is never negative. Without credentials, every birthday is reported as failed. |
| Text.LastIndex | scripts/extract.py:68 | Gives the position of a character that is not followed by another copy of it, or none when the character does not occur. Extract uses it for the last '.' of a name, and the address check for the last dot. |
| Extract.Suffix | scripts/extract.py:68 | A path suffix is empty, or is a dot followed by a dot-free, non-empty ending that is a proper tail of the name. |
| Extract.FileName | scripts/extract.py:64 | The file name of a path contains no '/'. |
| Extract.FileNameOfJoin | scripts/extract.py:64 | For directories joined with '/' and a final name, the file name is that final name. |
| Extract.SuffixOfStemAndEnding | scripts/extract.py:68 | A non-empty stem, a dot and a dot-free, non-empty ending have that ending, with its dot, as their suffix. |
| Extract.ExtensionOfName | scripts/extract.py:68 | The extension of a plain file name is its ending after the last dot, lower-cased. |
| Extract.SelectReader | scripts/extract.py:64-81 | An explicit type picks CSV exactly for "csv" and Excel exactly for "excel", and any other type fails with that type. Without a type, ".csv" picks CSV and ".xlsx" or ".xls" picks Excel. Any other extension fails with that extension. |
| Extract.ExplicitTypeIgnoresPath | scripts/extract.py:66-81 | With an explicit type, the path plays no part. |
| Extract.CsvInAnyCase | scripts/extract.py:68-70 | A file whose ending lower-cases to "csv", in any mix of cases, is read as CSV. |
| Extract.UpperCaseCsv | scripts/extract.py:68-70 | "BIRTHDAYS.CSV" is read as CSV. |
| Extract.DotFileHasNoExtension | scripts/extract.py:68-74 | ".csv" has no suffix and is rejected with an empty extension. |
| Extract.NoDotIsRejected | scripts/extract.py:73-74 | A file name without a dot is rejected with an empty extension. |

## Left out

- Reading and writing files is left out because it is I/O. This covers the CSV and Excel readers, `na_values`, the cleaned CSV written and read back between steps, the loader module, directories and logging. The model assumes the cleaned table reads back with the same cells.
- Building and sending the message is the `deliver` oracle. This covers MIME, SMTP, TLS, login and the HTML template. A raised exception is one of its outcomes.
- The scheduler is left out: task wiring, retries and the cross-task store. Store values are passed as `Option` values, and a key nobody pushed reads as `None`.
- The clock is the `today` parameter, and the summary's run time is left out.
- Dates.ParseWithFormat: the library turns the strings "now" and "today" into the current clock time under every explicit format, so `parse_date` returns a timestamp for them at the first format. The model has no clock in the cleaning step. It treats these two strings as raising under every format, so they reach the automatic parser. This keeps the cleaning step a pure function of the table.
- The library's automatic date guessing is the `auto` oracle. It may give a representable timestamp, NaT, or raise (`None`). Nothing else is assumed of it.
- Cleaner.TransformAsWritten: the dtype the library infers for the applied date column is taken as described at `TransformAsWritten`. A timestamp or NaT anywhere makes a datetime column. All None, or no rows, leaves an object column.
- Title case, lower case and digits are modelled on ASCII only. Python's Unicode letter and digit tables are left out. Whitespace follows Python's full `str.isspace` set.
- Dates of birth are strings. Non-string date cells, such as Excel date cells, are left out.
- The `%d` token's space-padded form is accepted as strptime accepts it. Any other leniency of the library's format fast path is left out.
- `validate_email` is modelled only with `drop_invalid=True`, the only way the transform step calls it. The marking path is left out.
- Every column is assumed to be present, so the stages' missing-column early returns are left out.
- A list entry whose `name` or `email` key holds a null value is not distinguished from a missing key.
- The recipients text of the summary is left out because it only formats the list for logging.
- Dag.LogSummary: the summary figures are modelled. The report's text layout is not.
- Dag.SendResults: the SMTP host, port and sender address are not modelled. A non-numeric port setting makes `int()` at dags/birthday_email_dag.py:179 raise before the credentials check. The model assumes the setting is numeric or unset.

## Findings

| source | as written | input that shows it | evidently intended | confidence | as-written member | corrected member |
|---|---|---|---|---|---|---|
| dags/birthday_email_dag.py:244 | The removed figure is `record_count - cleaned_count` only if both counts are truthy, else 0 | 5 records extracted and all 5 cleaned away: cleaned count 0, reported removed 0 | Report 5 removed | not executed | Dag.RecordsRemovedAsWritten (shown by Dag.AllRemovedReportedAsNone) | Dag.RecordsRemoved (proved by Dag.RemovedFigureCounts) |
| dags/birthday_email_dag.py:185-190 | The no-credentials return does not store `email_results`, and neither does the no-birthday return at 173-175 | Two birthdays today with the SMTP user unset: the step returns failed 2, the summary reports failed 0 | The summary reports the 2 failures | not executed | Dag.SendStepAsWritten (shown by Dag.UnconfiguredFailuresLost) | Dag.SendStep (proved by Dag.DailyRunAccounts) |
| scripts/transform.py:100 | The month column is derived through the datetime accessor even when every `parse_date` value is None | An empty table, or a table whose only date of birth is "not a date" (every format and the automatic parser raise): the column holds only None, is not datetime-like, and the accessor raises | Return an empty cleaned table | not executed; medium, it rests on the library's dtype inference | Cleaner.TransformAsWritten (shown by CleanerFacts.EmptyInputRaises) | Cleaner.Transform (proved by CleanerFacts.TransformAsWrittenDiffers) |

=== FILE: cleaner.dfy ===
/** The record-level cleaning pipeline of `transform`: trim, drop rows missing a
    critical field, title-case names, parse dates, drop invalid addresses, drop
    repeated addresses, drop unparsed dates. Each stage is an order-preserving
    filter or a per-row map over the table's rows. */
module Cleaner {
  import opened Wrappers
  import opened Seqs
  import opened Text
  import opened Dates
  import EmailPattern

  /** A row as read: a missing cell is `None`. */
  datatype Record = Record(name: Option<string>, email: Option<string>, dob: Option<string>)

  /** A row once its date has been parsed; `parsed` is `None` when no format accepted it.
      The birth month and day columns are `parsed.value.month` and `parsed.value.day`. */
  datatype DatedRecord = DatedRecord(record: Record, parsed: Option<Date>)

  /** Why the cleaning step raised instead of returning a table. */
  datatype TransformError = DateAccessorOnNonDates

  function StripCell(c: Option<string>): (r: Option<string>) {
    match c
    case None => None
    case Some(s) => Some(Strip(s))
  }

  /** A cell that is missing or has no whitespace at either end. */
  predicate Trimmed(c: Option<string>) {
    c.None? || |c.value| == 0 || (!IsSpace(c.value[0]) && !IsSpace(c.value[|c.value| - 1]))
  }

  function TrimRecord(r: Record): (t: Record) {
    Record(StripCell(r.name), StripCell(r.email), StripCell(r.dob))
  }

  /** `trim_whitespace`: every string cell stripped; rows, their order and their
      missing cells unchanged. */
  function TrimWhitespace(rows: seq<Record>): (r: seq<Record>)
    ensures |r| == |rows|
    ensures forall i :: 0 <= i < |r| ==>
      Trimmed(r[i].name) && Trimmed(r[i].email) && Trimmed(r[i].dob)
    ensures forall i :: 0 <= i < |r| ==>
      r[i].name.Some? == rows[i].name.Some? && r[i].email.Some? == rows[i].email.Some? &&
      r[i].dob.Some? == rows[i].dob.Some?
    ensures forall i :: 0 <= i < |r| && rows[i].name.Some? ==> r[i].name.value == Strip(rows[i].name.value)
    ensures forall i :: 0 <= i < |r| && rows[i].email.Some? ==> r[i].email.value == Strip(rows[i].email.value)
    ensures forall i :: 0 <= i < |r| && rows[i].dob.Some? ==> r[i].dob.value == Strip(rows[i].dob.value)
  {
    Map(TrimRecord, rows)
  }

  /** The critical fields `name`, `email` and `dob` are all present. */
  predicate HasCriticalFields(r: Record) {
    r.name.Some? && r.email.Some? && r.dob.Some?
  }

  /** `handle_missing_values`: exactly the rows with all critical fields, in order. */
  function HandleMissingValues(rows: seq<Record>): (r: seq<Record>)
    ensures IsSubseq(r, rows)
    ensures forall i :: 0 <= i < |r| ==> HasCriticalFields(r[i])
    ensures forall x :: multiset(r)[x] == if HasCriticalFields(x) then multiset(rows)[x] else 0
  {
    FilterIsSubseq(rows, HasCriticalFields);
    Filter(rows, HasCriticalFields)
  }

  function TitleRecord(r: Record): (t: Record) {
    match r.name
    case None => r
    case Some(n) => r.(name := Some(Title(n)))
  }

  /** `standardize_names`: names title-cased; every other cell, the row count and order unchanged. */
  function StandardizeNames(rows: seq<Record>): (r: seq<Record>)
    ensures |r| == |rows|
    ensures forall i :: 0 <= i < |r| ==>
      r[i].email == rows[i].email && r[i].dob == rows[i].dob && r[i].name.Some? == rows[i].name.Some?
    ensures forall i :: 0 <= i < |r| && rows[i].name.Some? ==> r[i].name.value == Title(rows[i].name.value)
  {
    Map(TitleRecord, rows)
  }

  function DateRow(auto: AutoParser, r: Record): (d: DatedRecord) {
    DatedRecord(r, ParseDate(r.dob, auto))
  }

  /** `parse_dob`: every row gains its parsed date, or none; no row is dropped. */
  function ParseDob(rows: seq<Record>, auto: AutoParser): (r: seq<DatedRecord>)
    ensures |r| == |rows|
    ensures forall i :: 0 <= i < |r| ==> r[i].record == rows[i]
    ensures forall i :: 0 <= i < |r| ==> r[i].parsed == ParseDate(rows[i].dob, auto)
    ensures forall i :: 0 <= i < |r| && r[i].parsed.Some? ==>
      rows[i].dob.Some? && Representable(r[i].parsed.value)
  {
    Map((x: Record) => DateRow(auto, x), rows)
  }

  predicate HasValidEmail(d: DatedRecord) {
    EmailPattern.ValidEmail(d.record.email)
  }

  /** `validate_email(drop_invalid=True)`: exactly the rows whose address matches, in order. */
  function ValidateEmails(rows: seq<DatedRecord>): (r: seq<DatedRecord>)
    ensures IsSubseq(r, rows)
    ensures forall i :: 0 <= i < |r| ==> HasValidEmail(r[i])
    ensures forall x :: multiset(r)[x] == if HasValidEmail(x) then multiset(rows)[x] else 0
  {
    FilterIsSubseq(rows, HasValidEmail);
    Filter(rows, HasValidEmail)
  }

  function EmailOf(d: DatedRecord): (e: Option<string>) {
    d.record.email
  }

  /** No earlier row has the same address as row `i`: what keeping the first duplicate keeps. */
  predicate IsFirstOfEmail(rows: seq<DatedRecord>, i: int)
    requires 0 <= i < |rows|
  {
    forall j :: 0 <= j < i ==> EmailOf(rows[j]) != EmailOf(rows[i])
  }

  /** Scanning left to right, keep a row unless its address was already seen. */
  function DedupFrom(rows: seq<DatedRecord>, seen: set<Option<string>>): (r: seq<DatedRecord>)
  {
    if |rows| == 0 then []
    else if EmailOf(rows[0]) in seen then DedupFrom(rows[1..], seen)
    else [rows[0]] + DedupFrom(rows[1..], seen + {EmailOf(rows[0])})
  }

  /** The set of addresses appearing in `rows`. */
  function Addresses(rows: seq<DatedRecord>): (a: set<Option<string>>) {
    set d | d in rows :: EmailOf(d)
  }

  lemma AddressesCons(x: DatedRecord, rows: seq<DatedRecord>)
    ensures Addresses([x] + rows) == {EmailOf(x)} + Addresses(rows)
  {
  }

  /** Deduplication only deletes rows. */
  lemma {:induction false} DedupSubseq(rows: seq<DatedRecord>, seen: set<Option<string>>)
    ensures IsSubseq(DedupFrom(rows, seen), rows)
    decreases |rows|
  {
    if |rows| > 0 {
      var x := rows[0];
      if EmailOf(x) in seen {
        DedupSubseq(rows[1..], seen);
      } else {
        DedupSubseq(rows[1..], seen + {EmailOf(x)});
        var r := DedupFrom(rows, seen);
        assert r[0] == x && r[1..] == DedupFrom(rows[1..], seen + {EmailOf(x)});
      }
    }
  }

  /** Deduplication keeps no row whose address was seen before, and no address twice. */
  lemma {:induction false} DedupFresh(rows: seq<DatedRecord>, seen: set<Option<string>>)
    ensures forall k :: 0 <= k < |DedupFrom(rows, seen)| ==> EmailOf(DedupFrom(rows, seen)[k]) !in seen
    ensures DistinctBy(DedupFrom(rows, seen), EmailOf)
    decreases |rows|
  {
    if |rows| > 0 {
      var x := rows[0];
      if EmailOf(x) in seen {
        DedupFresh(rows[1..], seen);
      } else {
        var seen' := seen + {EmailOf(x)};
        DedupFresh(rows[1..], seen');
        var rest := DedupFrom(rows[1..], seen');
        var r := DedupFrom(rows, seen);
        assert r == [x] + rest;
        forall k, l | 0 <= k < l < |r|
          ensures EmailOf(r[k]) != EmailOf(r[l])
        {
          assert r[l] == rest[l - 1];
          if k > 0 {
            assert r[k] == rest[k - 1];
          }
        }
      }
    }
  }

  /** The addresses that survive deduplication are exactly those not seen before. */
  lemma {:induction false} DedupCovers(rows: seq<DatedRecord>, seen: set<Option<string>>)
    ensures Addresses(DedupFrom(rows, seen)) == Addresses(rows) - seen
    decreases |rows|
  {
    if |rows| > 0 {
      var x, tail := rows[0], rows[1..];
      assert rows == [x] + tail;
      AddressesCons(x, tail);
      if EmailOf(x) in seen {
        DedupCovers(tail, seen);
      } else {
        var seen' := seen + {EmailOf(x)};
        DedupCovers(tail, seen');
        AddressesCons(x, DedupFrom(tail, seen'));
      }
    }
  }

  /** `remove_duplicates`: drop every row whose exact address appeared earlier. What
      remains is an order-preserving selection of the rows in which no address occurs
      twice and every address of the input still occurs. */
  function RemoveDuplicates(rows: seq<DatedRecord>): (r: seq<DatedRecord>)
    ensures IsSubseq(r, rows)
    ensures DistinctBy(r, EmailOf)
    ensures Addresses(r) == Addresses(rows)
  {
    DedupSubseq(rows, {});
    DedupFresh(rows, {});
    DedupCovers(rows, {});
    DedupFrom(rows, {})
  }

  predicate IsParsed(d: DatedRecord) {
    d.parsed.Some?
  }

  /** The final `dropna` on the parsed date: exactly the rows with a date, in order. */
  function DropUnparsed(rows: seq<DatedRecord>): (r: seq<DatedRecord>)
    ensures IsSubseq(r, rows)
    ensures forall i :: 0 <= i < |r| ==> r[i].parsed.Some?
    ensures forall x :: multiset(r)[x] == if IsParsed(x) then multiset(rows)[x] else 0
  {
    FilterIsSubseq(rows, IsParsed);
    Filter(rows, IsParsed)
  }

  /** The table as `parse_dob` leaves it: trimmed, complete rows with title-cased
      names and their parsed dates. */
  function Dated(rows: seq<Record>, auto: AutoParser): (r: seq<DatedRecord>) {
    ParseDob(StandardizeNames(HandleMissingValues(TrimWhitespace(rows))), auto)
  }

  /** The table deduplication sees: dated rows with a valid address. */
  function Validated(rows: seq<Record>, auto: AutoParser): (r: seq<DatedRecord>) {
    ValidateEmails(Dated(rows, auto))
  }

  /** `transform`, with the date-accessor failure of the source repaired: when no
      row has a parsed date the result is simply empty. The cleaned table is an
      order-preserving selection of the dated rows with a valid address, each with a
      parsed date, and no address occurs twice. */
  function Transform(rows: seq<Record>, auto: AutoParser): (r: seq<DatedRecord>)
    ensures IsSubseq(r, Validated(rows, auto))
    ensures DistinctBy(r, EmailOf)
    ensures forall i :: 0 <= i < |r| ==> HasValidEmail(r[i]) && r[i].parsed.Some?
  {
    var v := Validated(rows, auto);
    var u := RemoveDuplicates(v);
    var t := DropUnparsed(u);
    SubseqTrans(t, u, v);
    SubseqKeepsDistinct(t, u, EmailOf);
    SubseqKeepsAll(t, v, HasValidEmail);
    t
  }

  /** The row's `parse_date` value is a timestamp or NaT rather than `None`. */
  predicate HasDateValue(auto: AutoParser, d: DatedRecord) {
    ParseCell(d.record.dob, auto).Some?
  }

  /** `transform` as written: `parse_dob` derives the month and day columns through
      the datetime accessor. The applied column is a datetime column when some row's
      value is a timestamp or NaT; when every value is `None`, or there are no rows,
      it is a column of objects and the accessor raises. */
  function TransformAsWritten(rows: seq<Record>, auto: AutoParser): (r: Result<seq<DatedRecord>, TransformError>)
    ensures r.Success? ==> r.value == Transform(rows, auto)
    ensures r.Failure? ==> r.error == DateAccessorOnNonDates
    ensures rows == [] ==> r.Failure?
  {
    var dated := Dated(rows, auto);
    if exists k :: 0 <= k < |dated| && HasDateValue(auto, dated[k]) then Success(Transform(rows, auto))
    else Failure(DateAccessorOnNonDates)
  }

  /** One input row as it reaches the end of the pipeline, if it survives. */
  function Prepared(auto: AutoParser, r: Record): (d: DatedRecord) {
    DateRow(auto, TitleRecord(TrimRecord(r)))
  }

  /** What every row of the cleaned table satisfies. */
  predicate CleanRow(d: DatedRecord) {
    HasCriticalFields(d.record) && EmailPattern.ValidEmail(d.record.email) &&
    d.parsed.Some? && Representable(d.parsed.value)
  }
}

=== FILE: cleaner_facts.dfy ===
/** Properties of the cleaning pipeline: what deduplication keeps, what survives the
    whole chain, and where the chain's stage order matters. */
module CleanerFacts {
  import opened Wrappers
  import opened Seqs
  import opened Text
  import opened Dates
  import EmailPattern
  import opened Cleaner

  /** Reference definition of keeping the first occurrence, read from the back:
      the last row stays exactly when no earlier row has its address. */
  function KeptFirsts(rows: seq<DatedRecord>): (r: seq<DatedRecord>)
    decreases |rows|
  {
    if |rows| == 0 then []
    else
      var n := |rows| - 1;
      KeptFirsts(rows[..n]) + (if IsFirstOfEmail(rows, n) then [rows[n]] else [])
  }

  /** Deduplicating a concatenation: the second part starts with the first part's addresses seen. */
  lemma {:induction false} DedupAppend(a: seq<DatedRecord>, b: seq<DatedRecord>, seen: set<Option<string>>)
    ensures DedupFrom(a + b, seen) == DedupFrom(a, seen) + DedupFrom(b, seen + Addresses(a))
    decreases |a|
  {
    if |a| == 0 {
      assert a + b == b;
      assert seen + Addresses(a) == seen;
    } else {
      var x, tail := a[0], a[1..];
      assert (a + b)[0] == x && (a + b)[1..] == tail + b;
      assert a == [x] + tail;
      AddressesCons(x, tail);
      if EmailOf(x) in seen {
        DedupAppend(tail, b, seen);
        assert seen + Addresses(a) == seen + Addresses(tail);
      } else {
        var seen' := seen + {EmailOf(x)};
        DedupAppend(tail, b, seen');
        assert seen' + Addresses(tail) == seen + Addresses(a);
      }
    }
  }

  /** The last row is the first of its address iff the address does not occur before it. */
  lemma LastIsFirstIff(rows: seq<DatedRecord>)
    requires |rows| > 0
    ensures IsFirstOfEmail(rows, |rows| - 1) <==> EmailOf(rows[|rows| - 1]) !in Addresses(rows[..|rows| - 1])
  {
    var n := |rows| - 1;
    if !IsFirstOfEmail(rows, n) {
      var j :| 0 <= j < n && EmailOf(rows[j]) == EmailOf(rows[n]);
      assert rows[..n][j] == rows[j];
    }
  }

  /** `remove_duplicates` keeps, in order, exactly the rows that are the first with
      their address. */
  lemma {:induction false} RemoveDuplicatesKeepsFirsts(rows: seq<DatedRecord>)
    ensures RemoveDuplicates(rows) == KeptFirsts(rows)
    decreases |rows|
  {
    if |rows| > 0 {
      var n := |rows| - 1;
      var p, y := rows[..n], rows[n];
      assert rows == p + [y];
      RemoveDuplicatesKeepsFirsts(p);
      DedupAppend(p, [y], {});
      assert {} + Addresses(p) == Addresses(p);
      assert [y][1..] == [];
      LastIsFirstIff(rows);
    }
  }

  /** In a table whose rows have distinct addresses, two rows sharing an address are one row. */
  lemma DistinctSameAddress(s: seq<DatedRecord>, a: DatedRecord, b: DatedRecord)
    requires DistinctBy(s, EmailOf) && a in s && b in s && EmailOf(a) == EmailOf(b)
    ensures a == b
  {
    var i :| 0 <= i < |s| && s[i] == a;
    var j :| 0 <= j < |s| && s[j] == b;
  }

  /** A row that is the first with its address is kept by the reference definition. */
  lemma {:induction false} FirstIsKept(rows: seq<DatedRecord>, i: int)
    requires 0 <= i < |rows| && IsFirstOfEmail(rows, i)
    ensures rows[i] in KeptFirsts(rows)
    decreases |rows|
  {
    var n := |rows| - 1;
    if i < n {
      var p := rows[..n];
      assert p[i] == rows[i];
      assert IsFirstOfEmail(p, i) by {
        forall j | 0 <= j < i
          ensures EmailOf(p[j]) != EmailOf(p[i])
        {
          assert p[j] == rows[j];
        }
      }
      FirstIsKept(p, i);
    }
  }

  /** Every row of the table `parse_dob` produces is complete, and its parsed date, if
      any, is a representable timestamp. */
  lemma DatedRowsComplete(rows: seq<Record>, auto: AutoParser)
    ensures forall d :: d in Dated(rows, auto) ==>
      HasCriticalFields(d.record) && (d.parsed.Some? ==> Representable(d.parsed.value))
  {
    var m := HandleMissingValues(TrimWhitespace(rows));
    var t := StandardizeNames(m);
    var dated := ParseDob(t, auto);
    forall d | d in dated
      ensures HasCriticalFields(d.record) && (d.parsed.Some? ==> Representable(d.parsed.value))
    {
      var i :| 0 <= i < |dated| && dated[i] == d;
      assert HasCriticalFields(m[i]);
    }
  }

  /** The rows `parse_dob` produces are the input's rows, trimmed, title-cased and
      dated, in their original order with some deleted. */
  lemma DatedIsPreparedSubseq(rows: seq<Record>, auto: AutoParser)
    ensures IsSubseq(Dated(rows, auto), Map((x: Record) => Prepared(auto, x), rows))
  {
    var m := HandleMissingValues(TrimWhitespace(rows));
    var clean := (x: Record) => TitleRecord(TrimRecord(x));
    MapAfterSubseq(TitleRecord, TrimRecord, clean, m, rows);
    MapAfterSubseq((x: Record) => DateRow(auto, x), clean, (x: Record) => Prepared(auto, x),
                   StandardizeNames(m), rows);
  }

  /** The cleaned table's rows are the input's rows, trimmed, title-cased and dated,
      in their original order with some deleted. */
  lemma TransformIsPreparedSubseq(rows: seq<Record>, auto: AutoParser)
    ensures IsSubseq(Transform(rows, auto), Map((x: Record) => Prepared(auto, x), rows))
  {
    var dated := Dated(rows, auto);
    var v := Validated(rows, auto);
    var u := RemoveDuplicates(v);
    DatedIsPreparedSubseq(rows, auto);
    DedupSubseq(v, {});
    SubseqTrans(u, v, dated);
    SubseqTrans(Transform(rows, auto), u, dated);
    SubseqTrans(Transform(rows, auto), dated, Map((x: Record) => Prepared(auto, x), rows));
  }

  /** Every row of the cleaned table is complete, has a valid address and a parsed,
      representable date, and no address occurs twice. */
  lemma TransformClean(rows: seq<Record>, auto: AutoParser)
    ensures forall d :: d in Transform(rows, auto) ==> CleanRow(d)
    ensures DistinctBy(Transform(rows, auto), EmailOf)
  {
    var dated := Dated(rows, auto);
    var v := Validated(rows, auto);
    var u := RemoveDuplicates(v);
    var t := Transform(rows, auto);
    DatedRowsComplete(rows, auto);
    DedupSubseq(v, {});
    SubseqMembers(t, u);
    SubseqMembers(u, v);
    SubseqMembers(v, dated);
    SubseqKeepsDistinct(t, u, EmailOf);
    forall d | d in t
      ensures CleanRow(d)
    {
      var i :| 0 <= i < |t| && t[i] == d;
      var k :| 0 <= k < |v| && v[k] == d;
      assert HasValidEmail(v[k]);
    }
  }

  /** Deduplication happens before unparsed dates are dropped, so an address survives
      exactly when its FIRST valid row has a parsed date: a later duplicate with a good
      date does not stand in for a first row whose date failed. */
  lemma TransformAddresses(rows: seq<Record>, auto: AutoParser, i: int)
    requires 0 <= i < |Validated(rows, auto)| && IsFirstOfEmail(Validated(rows, auto), i)
    ensures EmailOf(Validated(rows, auto)[i]) in Addresses(Transform(rows, auto)) <==>
      Validated(rows, auto)[i].parsed.Some?
  {
    var v := Validated(rows, auto);
    var u := RemoveDuplicates(v);
    var t := Transform(rows, auto);
    RemoveDuplicatesKeepsFirsts(v);
    FirstIsKept(v, i);
    SubseqMembers(t, u);
    if EmailOf(v[i]) in Addresses(t) {
      var d :| d in t && EmailOf(d) == EmailOf(v[i]);
      DistinctSameAddress(u, d, v[i]);
    }
    if v[i].parsed.Some? {
      assert multiset(t)[v[i]] == multiset(u)[v[i]];
      assert v[i] in t;
    }
  }

  /** A later row can lose to an earlier one that is dropped afterwards: with the same
      address, an unparseable first row and a well-dated second row, nothing survives. */
  lemma DuplicateOfUnparsedIsLost(rows: seq<Record>, auto: AutoParser, i: int, j: int)
    requires 0 <= i < j < |Validated(rows, auto)|
    requires IsFirstOfEmail(Validated(rows, auto), i)
    requires EmailOf(Validated(rows, auto)[i]) == EmailOf(Validated(rows, auto)[j])
    requires Validated(rows, auto)[i].parsed.None? && Validated(rows, auto)[j].parsed.Some?
    ensures Validated(rows, auto)[j] !in Transform(rows, auto)
  {
    TransformAddresses(rows, auto, i);
    var t := Transform(rows, auto);
  }

  /** When no row's date parses, the repaired pipeline yields an empty table. */
  lemma TransformEmptyWithoutDates(rows: seq<Record>, auto: AutoParser)
    requires forall k :: 0 <= k < |Dated(rows, auto)| ==> Dated(rows, auto)[k].parsed.None?
    ensures Transform(rows, auto) == []
  {
    var dated := Dated(rows, auto);
    var v := Validated(rows, auto);
    var u := RemoveDuplicates(v);
    var t := Transform(rows, auto);
    DedupSubseq(v, {});
    SubseqMembers(u, v);
    SubseqMembers(v, dated);
    assert forall d :: d in u ==> !IsParsed(d);
    CountNone(u, IsParsed);
    FilterCount(u, IsParsed);
  }

  /** Rows whose `parse_date` value is `None` have no birth date. */
  lemma NoValueNoDate(rows: seq<Record>, auto: AutoParser)
    ensures forall k :: 0 <= k < |Dated(rows, auto)| && !HasDateValue(auto, Dated(rows, auto)[k]) ==>
      Dated(rows, auto)[k].parsed.None?
  {
    var t := StandardizeNames(HandleMissingValues(TrimWhitespace(rows)));
    assert forall k :: 0 <= k < |Dated(rows, auto)| ==>
      Dated(rows, auto)[k].parsed == ParseDate(t[k].dob, auto) && Dated(rows, auto)[k].record == t[k];
  }

  /** `transform` as written raises exactly when every row's `parse_date` value is
      `None`, and otherwise returns the repaired pipeline's table; where it raises,
      the repaired pipeline returns the empty table. */
  lemma TransformAsWrittenDiffers(rows: seq<Record>, auto: AutoParser)
    ensures TransformAsWritten(rows, auto).Success? ==> TransformAsWritten(rows, auto).value == Transform(rows, auto)
    ensures TransformAsWritten(rows, auto).Failure? <==>
      forall k :: 0 <= k < |Dated(rows, auto)| ==> !HasDateValue(auto, Dated(rows, auto)[k])
    ensures TransformAsWritten(rows, auto).Failure? ==> Transform(rows, auto) == []
  {
    if TransformAsWritten(rows, auto).Failure? {
      NoValueNoDate(rows, auto);
      TransformEmptyWithoutDates(rows, auto);
    }
  }

  /** A table whose every remaining date of birth is blank or a spelling of NaT is
      cleaned to the empty table without raising: NaT makes the applied column a
      datetime column, and the final drop removes every row. */
  lemma NullDobsGiveEmptyTable(rows: seq<Record>, auto: AutoParser)
    requires |Dated(rows, auto)| > 0
    requires forall k :: 0 <= k < |Dated(rows, auto)| ==>
      Dated(rows, auto)[k].record.dob.Some? && IsNullSpelling(Dated(rows, auto)[k].record.dob.value)
    ensures TransformAsWritten(rows, auto) == Success([])
  {
    var dated := Dated(rows, auto);
    var t := StandardizeNames(HandleMissingValues(TrimWhitespace(rows)));
    assert forall k :: 0 <= k < |dated| ==> dated[k].parsed == ParseDate(t[k].dob, auto) && dated[k].record == t[k];
    assert HasDateValue(auto, dated[0]);
    assert forall k :: 0 <= k < |dated| ==> dated[k].parsed.None?;
    TransformEmptyWithoutDates(rows, auto);
  }

  /** An empty input table makes `transform` as written raise, where an empty table is
      the evident answer. */
  lemma EmptyInputRaises(auto: AutoParser)
    ensures TransformAsWritten([], auto) == Failure(DateAccessorOnNonDates)
    ensures Transform([], auto) == []
  {
    assert Dated([], auto) == [];
  }

  /** `standardize_names` twice is `standardize_names` once. */
  lemma StandardizeNamesIdempotent(rows: seq<Record>)
    ensures StandardizeNames(StandardizeNames(rows)) == StandardizeNames(rows)
  {
    var once := StandardizeNames(rows);
    var twice := StandardizeNames(once);
    forall i | 0 <= i < |rows|
      ensures twice[i] == once[i]
    {
      if rows[i].name.Some? {
        TitleIdempotent(rows[i].name.value);
      }
    }
  }

  /** A cell holding only whitespace is trimmed to the empty string, which is still a
      present value: `handle_missing_values` keeps such a row. */
  lemma BlankCellCountsAsPresent()
    ensures HasCriticalFields(TrimRecord(Record(Some("  "), Some("a@b.co"), Some("2000-01-01"))))
    ensures TrimRecord(Record(Some("  "), Some("a@b.co"), Some("2000-01-01"))).name == Some("")
  {
    assert Strip("  ") == "" by {
      assert LeadLen("  ") == 2;
    }
  }
}

=== FILE: dag.dfy ===
/** The daily run's sending step and summary: the guards in front of the mailer, the
    results the step hands on through the cross-task store, and the counts the summary
    reports. The store is modelled by the values pushed into it; a key nobody pushed
    reads as `None`. */
module Dag {
  import opened Wrappers
  import opened Seqs
  import opened Dates
  import opened Cleaner
  import CleanerFacts
  import opened Matcher
  import opened Mailer

  /** The dictionary the send step returns: the counts and, on its early returns, a message. */
  datatype EmailResults = EmailResults(success: nat, failed: nat, message: Option<string>)

  /** SMTP credentials from the environment; an unset variable reads as "". */
  datatype SmtpCredentials = SmtpCredentials(user: string, password: string)

  /** What the send step returns, and what it leaves in the store under `email_results`. */
  datatype SendOutcome = SendOutcome(returned: EmailResults, pushed: Option<EmailResults>)

  const NoBirthdaysMessage: string := "No birthdays today"
  const NotConfiguredMessage: string := "SMTP not configured"

  /** Both the user and the password are set. */
  predicate Configured(c: SmtpCredentials) {
    c.user != "" && c.password != ""
  }

  /** The number of entries in the pulled birthday list; a missing list has none. */
  function ListLength(list: Option<seq<Person>>): (n: nat) {
    match list
    case None => 0
    case Some(people) => |people|
  }

  /** The send step actually calls the mailer: there are birthdays and SMTP is configured. */
  predicate Sends(list: Option<seq<Person>>, creds: SmtpCredentials) {
    ListLength(list) > 0 && Configured(creds)
  }

  /** The result `send_birthday_emails` computes: nothing to do for a missing or empty
      list, every entry failed when SMTP is not configured, the mailer's counts otherwise.
      Either way every listed person is counted exactly once. */
  function SendResults(list: Option<seq<Person>>, creds: SmtpCredentials, deliver: Recipient -> Delivery)
    : (r: EmailResults)
    ensures r.success + r.failed == ListLength(list)
    ensures r.message.None? <==> Sends(list, creds)
    ensures !Sends(list, creds) ==> r.success == 0
    ensures Sends(list, creds) ==> r.success == Successes(list.value, deliver)
  {
    if ListLength(list) == 0 then EmailResults(0, 0, Some(NoBirthdaysMessage))
    else if !Configured(creds) then EmailResults(0, ListLength(list), Some(NotConfiguredMessage))
    else
      var counts := MailAll(list.value, deliver);
      EmailResults(counts.success, counts.failed, None)
  }

  /** The send step as written: the results reach the store only on the path that calls
      the mailer; both early returns leave `email_results` unset. */
  function SendStepAsWritten(list: Option<seq<Person>>, creds: SmtpCredentials, deliver: Recipient -> Delivery)
    : (o: SendOutcome)
    ensures o.returned == SendResults(list, creds, deliver)
    ensures o.pushed.Some? <==> Sends(list, creds)
    ensures o.pushed.Some? ==> o.pushed.value == o.returned
  {
    var r := SendResults(list, creds, deliver);
    SendOutcome(r, if r.message.None? then Some(r) else None)
  }

  /** The send step with the results stored on every path: it returns what the step
      as written returns, stores counts covering every listed person, and stores the
      same as the step as written exactly when the mailer is called. */
  function SendStep(list: Option<seq<Person>>, creds: SmtpCredentials, deliver: Recipient -> Delivery)
    : (o: SendOutcome)
    ensures o.returned == SendStepAsWritten(list, creds, deliver).returned
    ensures o.pushed.Some? && o.pushed.value.success + o.pushed.value.failed == ListLength(list)
    ensures o.pushed == SendStepAsWritten(list, creds, deliver).pushed <==> Sends(list, creds)
  {
    var r := SendResults(list, creds, deliver);
    SendOutcome(r, Some(r))
  }

  /** The figures of the daily report. */
  datatype Summary = Summary(
    extracted: Option<int>, cleaned: Option<int>, removed: int,
    birthdays: Option<int>, sent: nat, failed: nat)

  /** Python truthiness of a pulled count: present and non-zero. */
  predicate Truthy(n: Option<int>) {
    n.Some? && n.value != 0
  }

  /** The removed-records figure as written: the difference, but only when both counts
      are truthy, so a run that cleaned every record away reports none removed. With
      both counts present it agrees with the repaired figure exactly when the counts
      are equal or both non-zero. */
  function RecordsRemovedAsWritten(recordCount: Option<int>, cleanedCount: Option<int>): (k: int)
    ensures recordCount.Some? && cleanedCount.Some? ==>
      (k == RecordsRemoved(recordCount, cleanedCount) <==>
        recordCount.value == cleanedCount.value || (recordCount.value != 0 && cleanedCount.value != 0))
    ensures recordCount.None? || cleanedCount.None? ==> k == RecordsRemoved(recordCount, cleanedCount)
  {
    if Truthy(recordCount) && Truthy(cleanedCount) then recordCount.value - cleanedCount.value else 0
  }

  /** The removed-records figure with a zero count treated as a count: the cleaned and
      removed figures add up to the extracted one. */
  function RecordsRemoved(recordCount: Option<int>, cleanedCount: Option<int>): (k: int)
    ensures recordCount.Some? && cleanedCount.Some? ==> cleanedCount.value + k == recordCount.value
  {
    if recordCount.Some? && cleanedCount.Some? then recordCount.value - cleanedCount.value else 0
  }

  /** The sent and failed figures: taken from the stored results, zero when none were stored. */
  function SentFigure(pushed: Option<EmailResults>): (n: nat) {
    match pushed
    case None => 0
    case Some(r) => r.success
  }

  function FailedFigure(pushed: Option<EmailResults>): (n: nat) {
    match pushed
    case None => 0
    case Some(r) => r.failed
  }

  /** `log_summary` as written. */
  function LogSummaryAsWritten(recordCount: Option<int>, cleanedCount: Option<int>,
                               birthdayCount: Option<int>, pushed: Option<EmailResults>): (s: Summary)
    ensures s.removed == RecordsRemovedAsWritten(recordCount, cleanedCount)
    ensures pushed.None? ==> s.sent == 0 && s.failed == 0
    ensures pushed.Some? ==> s.sent == pushed.value.success && s.failed == pushed.value.failed
  {
    Summary(recordCount, cleanedCount, RecordsRemovedAsWritten(recordCount, cleanedCount),
            birthdayCount, SentFigure(pushed), FailedFigure(pushed))
  }

  /** `log_summary` with the removed figure repaired: every other figure is the one the
      summary as written reports. */
  function LogSummary(recordCount: Option<int>, cleanedCount: Option<int>,
                      birthdayCount: Option<int>, pushed: Option<EmailResults>): (s: Summary)
    ensures s == LogSummaryAsWritten(recordCount, cleanedCount, birthdayCount, pushed).(removed := s.removed)
    ensures s.removed == RecordsRemoved(recordCount, cleanedCount)
    ensures pushed.Some? ==> s.sent == pushed.value.success && s.failed == pushed.value.failed
  {
    Summary(recordCount, cleanedCount, RecordsRemoved(recordCount, cleanedCount),
            birthdayCount, SentFigure(pushed), FailedFigure(pushed))
  }

  /** Every record cleaned away is reported as removed, including when none remain. */
  lemma RemovedFigureCounts(recordCount: int, cleanedCount: int)
    ensures RecordsRemoved(Some(recordCount), Some(cleanedCount)) == recordCount - cleanedCount
    ensures cleanedCount == 0 ==> RecordsRemovedAsWritten(Some(recordCount), Some(cleanedCount)) == 0
  {
  }

  /** Five records extracted and all five cleaned away: the summary as written says none
      were removed. */
  lemma AllRemovedReportedAsNone()
    ensures RecordsRemovedAsWritten(Some(5), Some(0)) == 0
    ensures RecordsRemoved(Some(5), Some(0)) == 5
  {
  }

  /** With birthdays today but no SMTP credentials, the step as written returns every
      entry as failed yet stores nothing, so the summary reports no failures. */
  lemma UnconfiguredFailuresLost(people: seq<Person>, creds: SmtpCredentials, deliver: Recipient -> Delivery,
                                 extracted: Option<int>, cleaned: Option<int>)
    requires |people| > 0 && !Configured(creds)
    ensures SendStepAsWritten(Some(people), creds, deliver).returned.failed == |people|
    ensures LogSummaryAsWritten(extracted, cleaned, Some(|people|),
              SendStepAsWritten(Some(people), creds, deliver).pushed).failed == 0
    ensures LogSummary(extracted, cleaned, Some(|people|),
              SendStep(Some(people), creds, deliver).pushed).failed == |people|
  {
  }

  /** The whole daily run with both repairs: clean, check today's birthdays, send, and
      summarise. The cleaned table is read back with its month and day columns. */
  function DailyRun(rows: seq<Record>, auto: AutoParser, today: Date, creds: SmtpCredentials,
                    deliver: Recipient -> Delivery): (s: Summary)
    ensures s.birthdays.Some? && s.sent + s.failed == s.birthdays.value
  {
    var cleaned := Transform(rows, auto);
    var check := CheckTodaysBirthdays(CleanedTable(true, cleaned), today);
    var outcome := SendStep(Some(check.people), creds, deliver);
    LogSummary(Some(|rows|), Some(|cleaned|), Some(check.count), outcome.pushed)
  }

  /** In the repaired run the summary accounts for every birthday exactly once, reports
      the records cleaned away, and reports every birthday as failed when SMTP is not
      configured. */
  lemma DailyRunAccounts(rows: seq<Record>, auto: AutoParser, today: Date, creds: SmtpCredentials,
                         deliver: Recipient -> Delivery)
    ensures var s := DailyRun(rows, auto, today, creds, deliver);
      s.birthdays.Some? && s.sent + s.failed == s.birthdays.value
    ensures var s := DailyRun(rows, auto, today, creds, deliver);
      0 <= s.removed == |rows| - |Transform(rows, auto)|
    ensures var s := DailyRun(rows, auto, today, creds, deliver);
      !Configured(creds) ==> s.sent == 0 && s.failed == s.birthdays.value
  {
    CleanerFacts.TransformIsPreparedSubseq(rows, auto);
    SubseqLength(Transform(rows, auto), Map((x: Record) => Prepared(auto, x), rows));
  }
}

=== FILE: date_facts.dfy ===
/** What the ordered format list means for particular inputs. */
module DateFacts {
  import opened Wrappers
  import opened Text
  import opened Dates

  /** The string a format reads a date from is its three pieces joined by the separator. */
  lemma AcceptedShape(s: string, f: Format)
    requires DateOf(ParseWithFormat(s, f)).Some?
    ensures var parts := Split(s, f.sep);
      |parts| == 3 && s == parts[0] + [f.sep] + parts[1] + [f.sep] + parts[2]
  {
    var parts := Split(s, f.sep);
    JoinSplit(s, f.sep);
    assert parts == [parts[0], parts[1], parts[2]];
    assert parts[1..] == [parts[1], parts[2]] && [parts[1], parts[2]][1..] == [parts[2]];
    assert Join([parts[2]], f.sep) == parts[2];
    assert Join([parts[1], parts[2]], f.sep) == parts[1] + [f.sep] + parts[2];
  }

  /** A string a format reads a date from consists of digits, spaces and that format's
      separator only. */
  lemma AcceptedCharacters(s: string, f: Format)
    requires DateOf(ParseWithFormat(s, f)).Some?
    ensures forall i :: 0 <= i < |s| ==> IsDigit(s[i]) || s[i] == ' ' || s[i] == f.sep
  {
    AcceptedShape(s, f);
    var parts := Split(s, f.sep);
    var (y, m, d) := Pieces(parts, f.order);
    assert YearToken(y) && MonthToken(m) && DayToken(d);
    assert forall k :: 0 <= k < 3 ==> forall i :: 0 <= i < |parts[k]| ==> IsDigit(parts[k][i]) || parts[k][i] == ' ';
    forall i | 0 <= i < |s|
      ensures IsDigit(s[i]) || s[i] == ' ' || s[i] == f.sep
    {
      if i < |parts[0]| {
        assert s[i] == parts[0][i];
      } else if i == |parts[0]| {
      } else if i < |parts[0]| + 1 + |parts[1]| {
        assert s[i] == parts[1][i - |parts[0]| - 1];
      } else if i == |parts[0]| + 1 + |parts[1]| {
      } else {
        assert s[i] == parts[2][i - |parts[0]| - |parts[1]| - 2];
      }
    }
  }

  /** A string one separator's format reads a date from makes every format using
      another separator raise. */
  lemma SeparatorsExclude(s: string, f: Format, g: Format)
    requires DateOf(ParseWithFormat(s, f)).Some?
    requires g.sep != f.sep && !IsDigit(g.sep) && g.sep != ' '
    ensures ParseWithFormat(s, g).None?
  {
    AcceptedCharacters(s, f);
    SplitWithoutSep(s, g.sep);
  }

  /** The format at position `k` decides when it is the first not to raise on `s`. */
  lemma FirstAcceptingDecides(s: string, k: nat, auto: AutoParser)
    requires k < |DateFormats|
    requires NoneBefore(s, DateFormats, k) && ParseWithFormat(s, DateFormats[k]).Some?
    ensures ParseCell(Some(s), auto) == ParseWithFormat(s, DateFormats[k])
  {
  }

  /** When every explicit format raises on `s`, the oracle decides. */
  lemma NoFormatAccepts(s: string, auto: AutoParser)
    requires NoneBefore(s, DateFormats, |DateFormats|)
    ensures ParseCell(Some(s), auto) == auto(s)
  {
  }

  /** An ambiguous slash date (one both `%d/%m/%Y` and `%m/%d/%Y` accept) is read
      day first, because that format comes earlier in the list. */
  lemma DayFirstWins(s: string, auto: AutoParser)
    requires DateOf(ParseWithFormat(s, Format(DMY, '/'))).Some?
    ensures ParseCell(Some(s), auto) == ParseWithFormat(s, Format(DMY, '/'))
  {
    SeparatorsExclude(s, Format(DMY, '/'), Format(YMD, '-'));
    FirstAcceptingDecides(s, 1, auto);
  }

  lemma SlashPieces(a: string, b: string, c: string)
    requires '/' !in a && '/' !in b && '/' !in c
    ensures Split(a + ['/'] + b + ['/'] + c, '/') == [a, b, c]
  {
    SplitThree(a, b, c, '/');
  }

  lemma DashPieces(a: string, b: string, c: string)
    requires '-' !in a && '-' !in b && '-' !in c
    ensures Split(a + ['-'] + b + ['-'] + c, '-') == [a, b, c]
  {
    SplitThree(a, b, c, '-');
  }

  lemma SplitAmbiguous()
    ensures Split("03/04/2000", '/') == ["03", "04", "2000"]
  {
    assert "03/04/2000" == "03" + ['/'] + "04" + ['/'] + "2000";
    SlashPieces("03", "04", "2000");
  }

  lemma SplitIso()
    ensures Split("1990-01-15", '-') == ["1990", "01", "15"]
  {
    assert "1990-01-15" == "1990" + ['-'] + "01" + ['-'] + "15";
    DashPieces("1990", "01", "15");
  }

  lemma SplitDayFirst()
    ensures Split("15/01/1990", '/') == ["15", "01", "1990"]
  {
    assert "15/01/1990" == "15" + ['/'] + "01" + ['/'] + "1990";
    SlashPieces("15", "01", "1990");
  }

  lemma SplitImpossible()
    ensures Split("2023-02-30", '-') == ["2023", "02", "30"]
  {
    assert "2023-02-30" == "2023" + ['-'] + "02" + ['-'] + "30";
    DashPieces("2023", "02", "30");
  }

  lemma AmbiguousSlashDateDayFirst()
    ensures ParseWithFormat("03/04/2000", Format(DMY, '/')) == Some(Stamp(Date(2000, 4, 3)))
  {
    SplitAmbiguous();
    assert YearToken("2000") && MonthToken("04") && DayToken("03");
    assert YearValue("2000") == 2000 && SmallValue("04") == 4 && SmallValue("03") == 3;
    assert Representable(Date(2000, 4, 3));
  }

  /** `03/04/2000` is the 3rd of April 2000. */
  lemma AmbiguousSlashDate(auto: AutoParser)
    ensures ParseDate(Some("03/04/2000"), auto) == Some(Date(2000, 4, 3))
  {
    AmbiguousSlashDateDayFirst();
    DayFirstWins("03/04/2000", auto);
  }

  lemma IsoDateFirstFormat()
    ensures ParseWithFormat("1990-01-15", Format(YMD, '-')) == Some(Stamp(Date(1990, 1, 15)))
  {
    SplitIso();
    assert YearToken("1990") && MonthToken("01") && DayToken("15");
    assert YearValue("1990") == 1990 && SmallValue("01") == 1 && SmallValue("15") == 15;
    assert Representable(Date(1990, 1, 15));
  }

  /** `1990-01-15` parses to 15 January 1990. */
  lemma IsoDate(auto: AutoParser)
    ensures ParseDate(Some("1990-01-15"), auto) == Some(Date(1990, 1, 15))
  {
    IsoDateFirstFormat();
    FirstAcceptingDecides("1990-01-15", 0, auto);
  }

  lemma DayMonthYearSecondFormat()
    ensures ParseWithFormat("15/01/1990", Format(DMY, '/')) == Some(Stamp(Date(1990, 1, 15)))
  {
    SplitDayFirst();
    assert YearToken("1990") && MonthToken("01") && DayToken("15");
    assert YearValue("1990") == 1990 && SmallValue("01") == 1 && SmallValue("15") == 15;
    assert Representable(Date(1990, 1, 15));
  }

  lemma DayMonthYearDate(auto: AutoParser)
    ensures ParseDate(Some("15/01/1990"), auto) == Some(Date(1990, 1, 15))
  {
    DayMonthYearSecondFormat();
    DayFirstWins("15/01/1990", auto);
  }

  /** Which of the five formats reject `s`, stated one by one. */
  lemma RejectedByFirstFour(s: string)
    requires ParseWithFormat(s, Format(YMD, '-')).None? && ParseWithFormat(s, Format(DMY, '/')).None?
    requires ParseWithFormat(s, Format(MDY, '/')).None? && ParseWithFormat(s, Format(DMY, '-')).None?
    ensures NoneBefore(s, DateFormats, 4)
  {
  }

  /** A string on which the first four formats raise is decided by the fifth. */
  lemma FifthFormatDecides(s: string, auto: AutoParser)
    requires ParseWithFormat(s, Format(YMD, '-')).None? && ParseWithFormat(s, Format(DMY, '/')).None?
    requires ParseWithFormat(s, Format(MDY, '/')).None? && ParseWithFormat(s, Format(DMY, '-')).None?
    requires ParseWithFormat(s, Format(MDY, '-')).Some?
    ensures ParseCell(Some(s), auto) == ParseWithFormat(s, Format(MDY, '-'))
  {
    RejectedByFirstFour(s);
    FirstAcceptingDecides(s, 4, auto);
  }

  lemma NoSlash(s: string)
    requires '/' !in s && !IsNullSpelling(s)
    ensures ParseWithFormat(s, Format(DMY, '/')).None? && ParseWithFormat(s, Format(MDY, '/')).None?
  {
    SplitWithoutSep(s, '/');
  }

  lemma ImpossibleNotIso()
    ensures ParseWithFormat("2023-02-30", Format(YMD, '-')).None?
  {
    SplitImpossible();
    assert YearToken("2023") && MonthToken("02") && DayToken("30");
    assert YearValue("2023") == 2023 && SmallValue("02") == 2 && SmallValue("30") == 30;
    assert !IsLeapYear(2023) && !Representable(Date(2023, 2, 30));
  }

  lemma ImpossibleNotDayFirst()
    ensures ParseWithFormat("2023-02-30", Format(DMY, '-')).None?
  {
    SplitImpossible();
  }

  lemma ImpossibleNotMonthFirst()
    ensures ParseWithFormat("2023-02-30", Format(MDY, '-')).None?
  {
    SplitImpossible();
  }

  /** `2023-02-30` names no day of the calendar, so no explicit format accepts it
      and only the oracle's guess remains. */
  lemma ImpossibleDateFallsThrough(auto: AutoParser)
    ensures ParseCell(Some("2023-02-30"), auto) == auto("2023-02-30")
  {
    var s := "2023-02-30";
    ImpossibleNotIso();
    ImpossibleNotDayFirst();
    ImpossibleNotMonthFirst();
    NoSlash(s);
    RejectedByFirstFour(s);
    assert NoneBefore(s, DateFormats, 5);
    NoFormatAccepts(s, auto);
  }
}

=== FILE: date_render.dfy ===
/** Writing a date in one of the cleaner's formats and reading it back: the explicit
    formats invert zero-padded rendering, and the order of the format list decides
    what an ambiguous slash date means. */
module DateRender {
  import opened Wrappers
  import opened Text
  import opened Dates
  import opened DateFacts

  function DigitChar(k: int): (c: char)
    requires 0 <= k <= 9
    ensures IsDigit(c) && DigitValue(c) == k
  {
    ('0' as int + k) as char
  }

  /** A month or day written with two digits, `%m`/`%d` style. */
  function Pad2(n: int): (t: string)
    requires 1 <= n <= 31
    ensures |t| == 2 && IsDigit(t[0]) && IsDigit(t[1])
  {
    [DigitChar(n / 10), DigitChar(n % 10)]
  }

  /** A year written with four digits, `%Y` style. */
  function Pad4(y: int): (t: string)
    requires 1000 <= y <= 9999
    ensures YearToken(t) && YearValue(t) == y
  {
    var r1 := y / 10;
    var r2 := r1 / 10;
    assert y == 10 * r1 + y % 10 && r1 == 10 * r2 + r1 % 10 && r2 == 10 * (r2 / 10) + r2 % 10;
    [DigitChar(r2 / 10), DigitChar(r2 % 10), DigitChar(r1 % 10), DigitChar(y % 10)]
  }

  lemma Pad2Month(n: int)
    requires 1 <= n <= 12
    ensures MonthToken(Pad2(n)) && SmallValue(Pad2(n)) == n
  {
  }

  lemma Pad2Day(n: int)
    requires 1 <= n <= 31
    ensures DayToken(Pad2(n)) && SmallValue(Pad2(n)) == n
  {
  }

  /** `d` written with format `f`. */
  function Render(d: Date, f: Format): (s: string)
    requires Representable(d)
    ensures |s| == 10
  {
    var y, m, dd := Pad4(d.year), Pad2(d.month), Pad2(d.day);
    match f.order
    case YMD => y + [f.sep] + m + [f.sep] + dd
    case DMY => dd + [f.sep] + m + [f.sep] + y
    case MDY => m + [f.sep] + dd + [f.sep] + y
  }

  /** Digit strings contain no separator of the formats. */
  lemma DigitsExcludeSep(t: string, sep: char)
    requires forall i :: 0 <= i < |t| ==> IsDigit(t[i])
    requires !IsDigit(sep)
    ensures sep !in t
  {
  }

  /** Rendering splits back into the three fields in the format's order. */
  lemma RenderSplits(d: Date, f: Format)
    requires Representable(d) && !IsDigit(f.sep)
    ensures |Split(Render(d, f), f.sep)| == 3 &&
      Pieces(Split(Render(d, f), f.sep), f.order) == (Pad4(d.year), Pad2(d.month), Pad2(d.day))
  {
    var y, m, dd := Pad4(d.year), Pad2(d.month), Pad2(d.day);
    DigitsExcludeSep(y, f.sep);
    DigitsExcludeSep(m, f.sep);
    DigitsExcludeSep(dd, f.sep);
    match f.order
    case YMD => SplitThree(y, m, dd, f.sep);
    case DMY => SplitThree(dd, m, y, f.sep);
    case MDY => SplitThree(m, dd, y, f.sep);
  }

  /** Every format reads back the date it rendered. */
  lemma {:induction false} RenderThenParse(d: Date, f: Format)
    requires Representable(d) && !IsDigit(f.sep)
    ensures ParseWithFormat(Render(d, f), f) == Some(Stamp(d))
  {
    RenderSplits(d, f);
    Pad2Month(d.month);
    Pad2Day(d.day);
  }

  /** A representable date written `%Y-%m-%d` is read back as itself. */
  lemma IsoRoundTrip(d: Date, auto: AutoParser)
    requires Representable(d)
    ensures ParseDate(Some(Render(d, Format(YMD, '-'))), auto) == Some(d)
  {
    RenderThenParse(d, Format(YMD, '-'));
    FirstAcceptingDecides(Render(d, Format(YMD, '-')), 0, auto);
  }

  /** A representable date written `%d/%m/%Y` is read back as itself. */
  lemma DayFirstRoundTrip(d: Date, auto: AutoParser)
    requires Representable(d)
    ensures ParseDate(Some(Render(d, Format(DMY, '/'))), auto) == Some(d)
  {
    RenderThenParse(d, Format(DMY, '/'));
    DayFirstWins(Render(d, Format(DMY, '/')), auto);
  }

  /** A date written `%m/%d/%Y` whose day could also be a month is misread with month
      and day exchanged, because `%d/%m/%Y` is tried first. */
  lemma MonthFirstSlashMisread(d: Date, auto: AutoParser)
    requires Representable(d) && d.day <= 12
    requires Representable(Date(d.year, d.day, d.month))
    ensures ParseDate(Some(Render(d, Format(MDY, '/'))), auto) == Some(Date(d.year, d.day, d.month))
  {
    var swapped := Date(d.year, d.day, d.month);
    assert Render(d, Format(MDY, '/')) == Render(swapped, Format(DMY, '/'));
    DayFirstRoundTrip(swapped, auto);
  }

  /** Under a dash format other than the ISO one, the ISO format raises: the first
      field is two digits, not a four-digit year. */
  lemma DashNotIso(d: Date, o: FieldOrder)
    requires Representable(d) && o != YMD
    ensures ParseWithFormat(Render(d, Format(o, '-')), Format(YMD, '-')).None?
  {
    RenderSplits(d, Format(o, '-'));
  }

  /** A day above 12 is not a `%m` token. */
  lemma Pad2NotMonth(n: int)
    requires 12 < n <= 31
    ensures !MonthToken(Pad2(n))
  {
    Pad2Day(n);
  }

  /** A date written `%m-%d-%Y` whose day is above 12 is read back as itself: every
      earlier format raises on it, so the fifth decides. */
  lemma MonthFirstDashRead(d: Date, auto: AutoParser)
    requires Representable(d) && d.day > 12
    ensures ParseDate(Some(Render(d, Format(MDY, '-'))), auto) == Some(d)
  {
    var s := Render(d, Format(MDY, '-'));
    RenderThenParse(d, Format(MDY, '-'));
    DashNotIso(d, MDY);
    SeparatorsExclude(s, Format(MDY, '-'), Format(DMY, '/'));
    SeparatorsExclude(s, Format(MDY, '-'), Format(MDY, '/'));
    RenderSplits(d, Format(MDY, '-'));
    Pad2NotMonth(d.day);
    FifthFormatDecides(s, auto);
  }

  /** A date written `%m-%d-%Y` whose day could also be a month is misread with month
      and day exchanged, because `%d-%m-%Y` is tried first. */
  lemma MonthFirstDashMisread(d: Date, auto: AutoParser)
    requires Representable(d) && d.day <= 12
    requires Representable(Date(d.year, d.day, d.month))
    ensures ParseDate(Some(Render(d, Format(MDY, '-'))), auto) == Some(Date(d.year, d.day, d.month))
  {
    var swapped := Date(d.year, d.day, d.month);
    var s := Render(swapped, Format(DMY, '-'));
    assert Render(d, Format(MDY, '-')) == s;
    RenderThenParse(swapped, Format(DMY, '-'));
    DashNotIso(swapped, DMY);
    SeparatorsExclude(s, Format(DMY, '-'), Format(DMY, '/'));
    SeparatorsExclude(s, Format(DMY, '-'), Format(MDY, '/'));
    assert NoneBefore(s, DateFormats, 3);
    FirstAcceptingDecides(s, 3, auto);
  }
}

=== FILE: dates.dfy ===
/** Calendar dates and the five explicit date formats the cleaner tries, in order,
    before falling back to the dataframe library's own guessing. */
module Dates {
  import opened Wrappers
  import opened Text

  datatype Date = Date(year: int, month: int, day: int)

  /** Gregorian leap years. */
  predicate IsLeapYear(y: int) {
    y % 4 == 0 && (y % 100 != 0 || y % 400 == 0)
  }

  function DaysInMonth(y: int, m: int): (n: int)
    requires 1 <= m <= 12
    ensures 28 <= n <= 31
  {
    if m == 2 then (if IsLeapYear(y) then 29 else 28)
    else if m == 4 || m == 6 || m == 9 || m == 11 then 30
    else 31
  }

  /** A real day of the Gregorian calendar. */
  predicate IsCalendarDate(d: Date) {
    1 <= d.month <= 12 && 1 <= d.day <= DaysInMonth(d.year, d.month)
  }

  /** Lexicographic order on (year, month, day). */
  predicate NotAfter(a: Date, b: Date) {
    a.year < b.year || (a.year == b.year && (a.month < b.month || (a.month == b.month && a.day <= b.day)))
  }

  /** The first and last midnight a nanosecond timestamp can hold. */
  const FirstTimestampDay := Date(1677, 9, 22)
  const LastTimestampDay := Date(2262, 4, 11)

  /** A date the dataframe library can represent as a timestamp. */
  predicate Representable(d: Date) {
    IsCalendarDate(d) && NotAfter(FirstTimestampDay, d) && NotAfter(d, LastTimestampDay)
  }

  type TimestampDate = d: Date | Representable(d) witness Date(1970, 1, 1)

  /** A value the library's date conversion produces: a timestamp, or NaT, its
      not-a-time marker. */
  datatype DateCell = Stamp(date: TimestampDate) | NaT

  /** The library's format-free guess at a date: an oracle with no assumed behaviour;
      `None` stands for the conversion raising. */
  type AutoParser = string -> Option<DateCell>

  /** The strings a conversion with an explicit format turns into NaT instead of
      raising: the empty string and the library's spellings of a missing time. */
  const NullSpellings: set<string> := {"", "NaT", "nat", "NAT", "nan", "NaN", "NAN"}

  predicate IsNullSpelling(s: string) {
    |s| <= 3 && s in NullSpellings
  }

  /** The timestamp's date, if the value is one. */
  function DateOf(c: Option<DateCell>): (r: Option<Date>)
    ensures r.Some? <==> c.Some? && c.value.Stamp?
    ensures r.Some? ==> r.value == c.value.date && Representable(r.value)
  {
    match c
    case Some(Stamp(d)) => Some(d)
    case _ => None
  }

  /** The order in which a format lists year, month and day. */
  datatype FieldOrder = YMD | DMY | MDY

  /** A `strftime`-style format made of the three numeric fields and one separator. */
  datatype Format = Format(order: FieldOrder, sep: char)

  /** `%Y-%m-%d`, `%d/%m/%Y`, `%m/%d/%Y`, `%d-%m-%Y`, `%m-%d-%Y`, tried in this order. */
  const DateFormats: seq<Format> :=
    [Format(YMD, '-'), Format(DMY, '/'), Format(MDY, '/'), Format(DMY, '-'), Format(MDY, '-')]


  function DigitValue(c: char): (v: int)
    requires IsDigit(c)
  {
    c as int - '0' as int
  }

  /** `%Y`: exactly four digits. */
  predicate YearToken(t: string) {
    |t| == 4 && IsDigit(t[0]) && IsDigit(t[1]) && IsDigit(t[2]) && IsDigit(t[3])
  }

  /** `%m`: `1[0-2]|0[1-9]|[1-9]`. */
  predicate MonthToken(t: string) {
    (|t| == 1 && '1' <= t[0] <= '9') ||
    (|t| == 2 && ((t[0] == '0' && '1' <= t[1] <= '9') || (t[0] == '1' && '0' <= t[1] <= '2')))
  }

  /** `%d`: `3[01]|[12][0-9]|0[1-9]|[1-9]| [1-9]` (a space may stand for a leading zero). */
  predicate DayToken(t: string) {
    (|t| == 1 && '1' <= t[0] <= '9') ||
    (|t| == 2 && ((t[0] == '3' && '0' <= t[1] <= '1') || (('1' <= t[0] <= '2') && IsDigit(t[1])) ||
                  ((t[0] == '0' || t[0] == ' ') && '1' <= t[1] <= '9')))
  }

  function YearValue(t: string): (v: int)
    requires YearToken(t)
  {
    1000 * DigitValue(t[0]) + 100 * DigitValue(t[1]) + 10 * DigitValue(t[2]) + DigitValue(t[3])
  }

  /** The number a one- or two-character month or day token denotes. */
  function SmallValue(t: string): (v: int)
    requires MonthToken(t) || DayToken(t)
    ensures MonthToken(t) ==> 1 <= v <= 12
    ensures DayToken(t) ==> 1 <= v <= 31
  {
    if |t| == 1 then DigitValue(t[0])
    else if t[0] == ' ' then DigitValue(t[1])
    else 10 * DigitValue(t[0]) + DigitValue(t[1])
  }

  /** The year, month and day pieces of a split string, as the format orders them. */
  function Pieces(parts: seq<string>, order: FieldOrder): (p: (string, string, string))
    requires |parts| == 3
  {
    match order
    case YMD => (parts[0], parts[1], parts[2])
    case DMY => (parts[2], parts[1], parts[0])
    case MDY => (parts[2], parts[0], parts[1])
  }

  /** Converting `s` with one explicit format: NaT for a null spelling; otherwise the
      string must be exactly three field tokens joined by the separator, and the
      numbers must name a representable day; anything else raises (`None`). */
  function ParseWithFormat(s: string, f: Format): (r: Option<DateCell>)
    ensures r == Some(NaT) <==> IsNullSpelling(s)
    ensures DateOf(r).Some? ==> |Split(s, f.sep)| == 3 && !IsNullSpelling(s)
  {
    if IsNullSpelling(s) then Some(NaT)
    else
      var parts := Split(s, f.sep);
      if |parts| != 3 then None
      else
        var (y, m, d) := Pieces(parts, f.order);
        if YearToken(y) && MonthToken(m) && DayToken(d) then
          var date := Date(YearValue(y), SmallValue(m), SmallValue(d));
          if Representable(date) then Some(Stamp(date)) else None
        else None
  }

  /** Whether every one of the first `k` formats of `fs` raises on `s`. */
  predicate NoneBefore(s: string, fs: seq<Format>, k: int)
    requires 0 <= k <= |fs|
  {
    forall j :: 0 <= j < k ==> ParseWithFormat(s, fs[j]).None?
  }

  /** Trying the formats of `fs` in order: the first that does not raise decides;
      when all raise, the oracle's guess is taken. */
  function ParseFirst(s: string, fs: seq<Format>, auto: AutoParser): (r: Option<DateCell>)
    ensures forall k :: 0 <= k < |fs| && NoneBefore(s, fs, k) && ParseWithFormat(s, fs[k]).Some? ==>
      r == ParseWithFormat(s, fs[k])
    ensures NoneBefore(s, fs, |fs|) ==> r == auto(s)
  {
    if |fs| == 0 then auto(s)
    else
      match ParseWithFormat(s, fs[0])
      case Some(c) => Some(c)
      case None =>
        var r := ParseFirst(s, fs[1..], auto);
        assert forall k :: 1 <= k <= |fs| && NoneBefore(s, fs, k) ==> NoneBefore(s, fs[1..], k - 1);
        r
  }

  /** The inner `parse_date` of the cleaner: a missing cell gives `None`; otherwise
      the five explicit formats are tried in order, then the oracle, and a conversion
      that raises everywhere gives `None`. */
  function ParseCell(dob: Option<string>, auto: AutoParser): (r: Option<DateCell>)
    ensures dob.None? ==> r.None?
    ensures dob.Some? && IsNullSpelling(dob.value) ==> r == Some(NaT)
    ensures dob.Some? && !IsNullSpelling(dob.value) && r == Some(NaT) ==>
      NoneBefore(dob.value, DateFormats, |DateFormats|) && auto(dob.value) == Some(NaT)
  {
    match dob
    case None => None
    case Some(s) =>
      assert NoneBefore(s, DateFormats, 0);
      ParseFirst(s, DateFormats, auto)
  }

  /** The birth date a row gets from its `dob` cell: the timestamp's date, or none
      when `parse_date` gave NaT or `None`. */
  function ParseDate(dob: Option<string>, auto: AutoParser): (r: Option<Date>)
    ensures r.Some? ==> dob.Some? && Representable(r.value)
    ensures r.Some? ==> 1 <= r.value.month <= 12 && 1 <= r.value.day <= DaysInMonth(r.value.year, r.value.month)
    ensures r.Some? <==> ParseCell(dob, auto).Some? && ParseCell(dob, auto).value.Stamp?
    ensures r.Some? ==> ParseCell(dob, auto) == Some(Stamp(r.value))
  {
    DateOf(ParseCell(dob, auto))
  }
}

=== FILE: email_pattern.dfy ===
/** The address check of the cleaner: Python's `re.match` with the pattern
    `^[a-zA-Z0-9._%+-]+@[a-zA-Z0-9.-]+\.[a-zA-Z]{2,}$`. */
module EmailPattern {
  import opened Wrappers
  import Text

  /** `[a-zA-Z0-9._%+-]` */
  predicate LocalChar(c: char) {
    Text.IsCased(c) || Text.IsDigit(c) || c == '.' || c == '_' || c == '%' || c == '+' || c == '-'
  }

  /** `[a-zA-Z0-9.-]` */
  predicate DomainChar(c: char) { Text.IsCased(c) || Text.IsDigit(c) || c == '.' || c == '-' }

  predicate AllLocal(s: string) { forall i :: 0 <= i < |s| ==> LocalChar(s[i]) }
  predicate AllDomain(s: string) { forall i :: 0 <= i < |s| ==> DomainChar(s[i]) }
  predicate AllLetters(s: string) { forall i :: 0 <= i < |s| ==> Text.IsCased(s[i]) }

  /** The pattern between its anchors, read as the backtracking matcher reads it:
      some choice of an `@` at `i` and a dot at `j` splits `s` into a non-empty
      local part, a non-empty domain part and a top-level label of two or more letters. */
  predicate PatternSplit(s: string, i: int, j: int)
    requires 0 < i < j < |s|
  {
    s[i] == '@' && s[j] == '.' && i + 1 < j && |s| - j - 1 >= 2 &&
    AllLocal(s[..i]) && AllDomain(s[i + 1..j]) && AllLetters(s[j + 1..])
  }

  predicate FullMatch(s: string) {
    exists i, j | 0 < i < j < |s| :: PatternSplit(s, i, j)
  }

  /** The local part admits no `@` and the top-level label no dot, so any split the
      pattern finds uses the first `@` and the last dot. */
  lemma ForcedSplit(s: string, i: nat, j: nat)
    requires i < |s| && s[i] == '@' && '@' !in s[..i]
    requires j < |s| && s[j] == '.' && '.' !in s[j + 1..]
    ensures forall i', j' | 0 < i' < j' < |s| && PatternSplit(s, i', j') :: i' == i && j' == j
  {
    forall i', j' | 0 < i' < j' < |s| && PatternSplit(s, i', j')
      ensures i' == i && j' == j
    {
      assert forall k :: 0 <= k < i ==> s[..i][k] == s[k];
      assert forall k :: 0 <= k < i' ==> s[..i'][k] == s[k];
      assert forall k :: j < k < |s| ==> s[j + 1..][k - j - 1] == s[k];
      assert forall k :: j' < k < |s| ==> s[j' + 1..][k - j' - 1] == s[k];
    }
  }

  /** The check done in one pass: the local part ends at the first `@` and the
      top-level label starts after the last dot. It agrees with the pattern. */
  function CheckAddress(s: string): (ok: bool)
    ensures ok <==> FullMatch(s)
  {
    match Text.FirstIndex(s, '@')
    case None => false
    case Some(i) =>
      match Text.LastIndex(s, '.')
      case None => false
      case Some(j) =>
        ForcedSplit(s, i, j);
        0 < i < j && PatternSplit(s, i, j)
  }

  /** `re.match` with the anchored pattern: `$` also matches just before a final newline. */
  function Matches(s: string): (ok: bool)
    ensures ok <==> FullMatch(s) || (|s| > 0 && s[|s| - 1] == '\n' && FullMatch(s[..|s| - 1]))
  {
    CheckAddress(s) || (|s| > 0 && s[|s| - 1] == '\n' && CheckAddress(s[..|s| - 1]))
  }

  /** The cleaner's validity of an address cell: a missing cell is invalid. */
  predicate ValidEmail(e: Option<string>) {
    e.Some? && Matches(e.value)
  }

  /** On an address without trailing whitespace (as every address is once stripped),
      the check is exactly the pattern. */
  lemma StrippedMatchesExactly(s: string)
    requires |s| == 0 || !Text.IsSpace(s[|s| - 1])
    ensures Matches(s) <==> FullMatch(s)
  {
  }

  /** A string with no `@` is never an address. */
  lemma NoAtSignInvalid(s: string)
    requires '@' !in s
    ensures !Matches(s)
  {
  }

  /** `john@example.com` passes: local part `john`, domain `example`, label `com`. */
  lemma ExampleAddressValid()
    ensures FullMatch("john@example.com")
  {
    assert PatternSplit("john@example.com", 4, 12);
  }
}

=== FILE: extract.dfy ===
/** How the extract step chooses a reader: an explicit file type wins; otherwise the
    path's extension, lower-cased, decides. Reading the file is not modelled; the
    result is the reader that would be called, or the error that would be raised. */
module Extract {
  import opened Wrappers
  import opened Text

  datatype Reader = CsvReader | ExcelReader

  /** The two `ValueError`s of the step, with the offending value. */
  datatype ExtractError = UnsupportedExtension(extension: string) | UnsupportedType(fileType: string)

  /** The last path component that names something: empty and "." components do not,
      as a path object drops them; no such component gives the empty name. */
  function LastName(parts: seq<string>): (name: string)
    ensures name != "."
    decreases |parts|
  {
    if |parts| == 0 then ""
    else
      var c := parts[|parts| - 1];
      if c == "" || c == "." then LastName(parts[..|parts| - 1]) else c
  }

  /** The final component of a '/'-separated path. */
  function FileName(path: string): (name: string)
    ensures '/' !in name
  {
    var parts := Split(path, '/');
    LastNameInParts(parts);
    LastName(parts)
  }

  lemma {:induction false} LastNameInParts(parts: seq<string>)
    ensures LastName(parts) == "" || LastName(parts) in parts
    decreases |parts|
  {
    if |parts| > 0 {
      var n := |parts| - 1;
      LastNameInParts(parts[..n]);
      if LastName(parts[..n]) in parts[..n] {
        assert LastName(parts[..n]) in parts;
      }
    }
  }

  /** A path object's `suffix`: from the last '.' of the name on, provided that dot
      neither starts nor ends the name; otherwise empty. */
  function Suffix(name: string): (r: string)
    ensures r == "" || (2 <= |r| < |name| && r[0] == '.' && '.' !in r[1..] && name[|name| - |r|..] == r)
  {
    match LastIndex(name, '.')
    case None => ""
    case Some(i) =>
      if 0 < i < |name| - 1 then
        assert forall k :: 0 <= k < |name[i..][1..]| ==> name[i..][1..][k] == name[i + 1 + k];
        name[i..]
      else ""
  }

  /** The extension the step tests: the suffix of the path's name, lower-cased. */
  function Extension(path: string): (e: string) {
    LowerString(Suffix(FileName(path)))
  }

  /** `extract`'s choice of reader. Without a file type the extension decides and
      only an unknown extension can fail; with one, only that type decides. */
  function SelectReader(path: string, fileType: Option<string>): (r: Result<Reader, ExtractError>)
    ensures fileType.Some? ==>
      (r == Success(CsvReader) <==> fileType.value == "csv") &&
      (r == Success(ExcelReader) <==> fileType.value == "excel") &&
      (r.Failure? ==> r.error == UnsupportedType(fileType.value))
    ensures fileType.None? ==>
      (r == Success(CsvReader) <==> Extension(path) == ".csv") &&
      (r == Success(ExcelReader) <==> Extension(path) in [".xlsx", ".xls"]) &&
      (r.Failure? ==> r.error == UnsupportedExtension(Extension(path)))
  {
    var chosen: Result<string, ExtractError> :=
      match fileType
      case Some(t) => Success(t)
      case None =>
        var extension := Extension(path);
        if extension == ".csv" then Success("csv")
        else if extension in [".xlsx", ".xls"] then Success("excel")
        else Failure(UnsupportedExtension(extension));
    match chosen
    case Failure(e) => Failure(e)
    case Success(t) =>
      if t == "csv" then Success(CsvReader)
      else if t == "excel" then Success(ExcelReader)
      else Failure(UnsupportedType(t))
  }

  /** A name made of a non-empty stem, a dot and a dot-free, non-empty ending has that
      ending as its suffix. */
  lemma SuffixOfStemAndEnding(stem: string, ending: string)
    requires stem != "" && ending != "" && '.' !in ending
    ensures Suffix(stem + "." + ending) == "." + ending
  {
    var name := stem + "." + ending;
    var i := |stem|;
    assert name[i] == '.';
    assert forall k :: i < k < |name| ==> name[k] == ending[k - i - 1];
    var d := LastIndex(name, '.');
    assert d == Some(i);
    assert name[i..] == "." + ending;
  }

  /** Directories joined by '/' and a final name: the name is the file name. */
  lemma FileNameOfJoin(dirs: seq<string>, name: string)
    requires forall k :: 0 <= k < |dirs| ==> '/' !in dirs[k]
    requires '/' !in name && name != "" && name != "."
    ensures FileName(Join(dirs + [name], '/')) == name
  {
    var parts := dirs + [name];
    assert forall k :: 0 <= k < |parts| ==> '/' !in parts[k] by {
      forall k | 0 <= k < |parts|
        ensures '/' !in parts[k]
      {
        if k < |dirs| {
          assert parts[k] == dirs[k];
        }
      }
    }
    SplitJoin(parts, '/');
  }

  /** An explicit file type makes the path irrelevant. */
  lemma ExplicitTypeIgnoresPath(path: string, other: string, fileType: string)
    ensures SelectReader(path, Some(fileType)) == SelectReader(other, Some(fileType))
  {
  }

  /** A stem, a dot and an ending, none with a '/', form a name without one. */
  lemma NameHasNoSlash(stem: string, ending: string)
    requires '/' !in stem && '/' !in ending
    ensures '/' !in stem + "." + ending
  {
    var name := stem + "." + ending;
    assert forall k :: 0 <= k < |name| ==>
      name[k] == (if k < |stem| then stem[k] else if k == |stem| then '.' else ending[k - |stem| - 1]);
  }

  lemma LowerAfterDot(ending: string)
    ensures LowerString("." + ending) == "." + LowerString(ending)
  {
  }

  /** The extension of a plain file name is its ending after the last dot, lower-cased. */
  lemma ExtensionOfName(stem: string, ending: string)
    requires stem != "" && ending != "" && '/' !in stem && '.' !in ending && '/' !in ending
    ensures Extension(stem + "." + ending) == "." + LowerString(ending)
  {
    var name := stem + "." + ending;
    NameHasNoSlash(stem, ending);
    SplitWithoutSep(name, '/');
    assert FileName(name) == name;
    SuffixOfStemAndEnding(stem, ending);
    LowerAfterDot(ending);
  }

  /** A plain file name whose ending lower-cases to "csv", in any mix of cases, is read
      as CSV. */
  lemma CsvInAnyCase(stem: string, ending: string)
    requires stem != "" && '/' !in stem && '.' !in ending && '/' !in ending
    requires LowerString(ending) == "csv"
    ensures SelectReader(stem + "." + ending, None) == Success(CsvReader)
  {
    ExtensionOfName(stem, ending);
  }

  /** "BIRTHDAYS.CSV" is read as CSV. */
  lemma UpperCaseCsv()
    ensures SelectReader("BIRTHDAYS" + "." + "CSV", None) == Success(CsvReader)
  {
    assert LowerString("CSV") == "csv";
    CsvInAnyCase("BIRTHDAYS", "CSV");
  }

  /** A name that only starts with a dot has no suffix: ".csv" is rejected with an
      empty extension. */
  lemma DotFileHasNoExtension()
    ensures SelectReader(".csv", None) == Failure(UnsupportedExtension(""))
  {
    SplitWithoutSep(".csv", '/');
    assert LastIndex(".csv", '.') == Some(0);
  }

  /** A file name without any dot has no extension, which is rejected. */
  lemma NoDotIsRejected(path: string)
    requires '.' !in FileName(path)
    ensures SelectReader(path, None) == Failure(UnsupportedExtension(""))
  {
    assert LowerString("") == "";
  }
}

=== FILE: mailer.dfy ===
/** The sending loop of the mailer: one attempt per listed person with an address,
    counted as a success or a failure. Building and delivering a message (MIME,
    SMTP, TLS) is the `deliver` parameter: it reports whether the server accepted
    the message, refused it, or the attempt raised. */
module Mailer {
  import opened Wrappers
  import opened Matcher

  /** The greeting name used when an entry has no `name` key. */
  const DefaultName: string := "Friend"

  /** Whom one message goes to: the greeting name and a non-empty address. */
  datatype Recipient = Recipient(name: string, address: string)

  /** What one delivery attempt came to. */
  datatype Delivery = Delivered | Refused | Raised

  /** The mailer's result: how many messages were delivered and how many were not. */
  datatype SendCounts = SendCounts(success: nat, failed: nat)

  /** The message recipient for one list entry; none when the address is missing or
      empty, which the loop counts as a failure without building a message. */
  function RecipientOf(p: Person): (r: Option<Recipient>)
    ensures r.None? <==> p.email.None? || p.email.value == ""
    ensures r.Some? ==> r.value.address == p.email.value && r.value.address != ""
    ensures r.Some? ==> r.value.name == p.name.GetOr(DefaultName)
  {
    match p.email
    case None => None
    case Some(e) => if e == "" then None else Some(Recipient(p.name.GetOr(DefaultName), e))
  }

  /** The recipients an attempt is made for, in list order. */
  function Attempts(people: seq<Person>): (r: seq<Recipient>)
    ensures |r| <= |people|
    ensures forall i :: 0 <= i < |r| ==> r[i].address != ""
    decreases |people|
  {
    if |people| == 0 then []
    else
      var n := |people| - 1;
      Attempts(people[..n]) + (match RecipientOf(people[n]) case None => [] case Some(x) => [x])
  }

  /** How many entries end in a delivered message. */
  function Successes(people: seq<Person>, deliver: Recipient -> Delivery): (k: nat)
    ensures k <= |people|
    decreases |people|
  {
    if |people| == 0 then 0
    else
      var n := |people| - 1;
      Successes(people[..n], deliver) +
        (match RecipientOf(people[n]) case None => 0 case Some(x) => if deliver(x) == Delivered then 1 else 0)
  }

  /** Delivered messages never outnumber attempts. */
  lemma {:induction false} SuccessesAtMostAttempts(people: seq<Person>, deliver: Recipient -> Delivery)
    ensures Successes(people, deliver) <= |Attempts(people)|
    decreases |people|
  {
    if |people| > 0 {
      SuccessesAtMostAttempts(people[..|people| - 1], deliver);
    }
  }

  /** The mailer's counts as a function of the list and the delivery outcomes: every
      entry is counted once, successes never outnumber the messages built, and every
      entry without a message is among the failures. */
  function MailAll(people: seq<Person>, deliver: Recipient -> Delivery): (c: SendCounts)
    ensures c.success + c.failed == |people|
    ensures c.success <= |Attempts(people)|
    ensures c.failed >= |people| - |Attempts(people)|
  {
    SuccessesAtMostAttempts(people, deliver);
    SendCounts(Successes(people, deliver), |people| - Successes(people, deliver))
  }

  /** `send_birthday_emails`: both counters start at zero and every entry adds one to
      exactly one of them; `calls` lists the recipients a message was built for. */
  method SendBirthdayEmails(people: seq<Person>, deliver: Recipient -> Delivery)
    returns (counts: SendCounts, calls: seq<Recipient>)
    ensures counts.success + counts.failed == |people|
    ensures counts == MailAll(people, deliver)
    ensures calls == Attempts(people)
  {
    var success, failed := 0, 0;
    calls := [];
    var i := 0;
    while i < |people|
      invariant 0 <= i <= |people|
      invariant success == Successes(people[..i], deliver)
      invariant success + failed == i
      invariant calls == Attempts(people[..i])
    {
      assert people[..i + 1][..i] == people[..i];
      match RecipientOf(people[i]) {
        case None =>
          failed := failed + 1;
        case Some(r) =>
          calls := calls + [r];
          if deliver(r) == Delivered {
            success := success + 1;
          } else {
            failed := failed + 1;
          }
      }
      i := i + 1;
    }
    assert people[..i] == people;
    counts := SendCounts(success, failed);
  }

  /** Every attempt goes to a listed person with a non-empty address. */
  lemma {:induction false} AttemptsAreListed(people: seq<Person>)
    ensures forall r :: r in Attempts(people) ==>
      (r.address != "" && exists p :: p in people && RecipientOf(p) == Some(r))
    decreases |people|
  {
    if |people| > 0 {
      var n := |people| - 1;
      AttemptsAreListed(people[..n]);
      forall r | r in Attempts(people)
        ensures r.address != "" && exists p :: p in people && RecipientOf(p) == Some(r)
      {
        if r in Attempts(people[..n]) {
          var p :| p in people[..n] && RecipientOf(p) == Some(r);
          assert p in people;
        } else {
          assert people[n] in people;
        }
      }
    }
  }

  /** When every delivery succeeds, the failures are exactly the entries without an
      address. */
  lemma {:induction false} AllDelivered(people: seq<Person>, deliver: Recipient -> Delivery)
    requires forall r :: deliver(r) == Delivered
    ensures MailAll(people, deliver).success == |Attempts(people)|
    ensures MailAll(people, deliver).failed == |people| - |Attempts(people)|
    decreases |people|
  {
    if |people| > 0 {
      AllDelivered(people[..|people| - 1], deliver);
    }
  }

  /** An entry without an address counts as failed whatever the server would do. */
  lemma {:induction false} NoAddressNoSuccess(people: seq<Person>, deliver: Recipient -> Delivery)
    requires forall k :: 0 <= k < |people| ==> RecipientOf(people[k]).None?
    ensures MailAll(people, deliver) == SendCounts(0, |people|)
    ensures Attempts(people) == []
    decreases |people|
  {
    if |people| > 0 {
      NoAddressNoSuccess(people[..|people| - 1], deliver);
    }
  }
}

=== FILE: matcher.dfy ===
/** The birthday check of the daily run: which rows of the cleaned table have their
    birthday on the run date, and the name/address list handed to the mailer. The
    run date, read from the clock in the source, is a parameter here. */
module Matcher {
  import opened Wrappers
  import opened Seqs
  import opened Dates
  import opened Cleaner

  /** One entry of the birthday list: the row's `name` and `email` values. */
  datatype Person = Person(name: Option<string>, email: Option<string>)

  /** The cleaned table as read back: whether it has the birth month and day
      columns, and its rows. */
  datatype CleanedTable = CleanedTable(hasBirthColumns: bool, rows: seq<DatedRecord>)

  /** What the check hands on: the birthday list and its length. */
  datatype BirthdayCheck = BirthdayCheck(people: seq<Person>, count: nat)

  /** The row's birth month and day equal the run date's; a row without a parsed
      date has missing month and day, which compare unequal to everything. */
  predicate BornOn(d: DatedRecord, today: Date) {
    d.parsed.Some? && d.parsed.value.month == today.month && d.parsed.value.day == today.day
  }

  function PersonOf(d: DatedRecord): (p: Person) {
    Person(d.record.name, d.record.email)
  }

  /** The rows whose birthday is today, in table order; none when the month and day
      columns are missing. */
  function TodaysRows(table: CleanedTable, today: Date): (r: seq<DatedRecord>)
    ensures IsSubseq(r, table.rows)
    ensures forall d :: d in r <==> table.hasBirthColumns && d in table.rows && BornOn(d, today)
    ensures forall d ::
      multiset(r)[d] == if table.hasBirthColumns && BornOn(d, today) then multiset(table.rows)[d] else 0
  {
    if table.hasBirthColumns then
      FilterIsSubseq(table.rows, (d: DatedRecord) => BornOn(d, today));
      Filter(table.rows, (d: DatedRecord) => BornOn(d, today))
    else
      SubseqEmpty(table.rows);
      []
  }

  lemma SubseqEmpty<T>(s: seq<T>)
    ensures IsSubseq([], s)
  {
  }

  /** `check_todays_birthdays`: the list of today's people, in table order, and its length. */
  function CheckTodaysBirthdays(table: CleanedTable, today: Date): (c: BirthdayCheck)
    ensures c.count == |c.people| <= |table.rows|
    ensures c.people == Map(PersonOf, TodaysRows(table, today))
    ensures forall p :: p in c.people <==>
      exists d :: d in table.rows && table.hasBirthColumns && BornOn(d, today) && p == PersonOf(d)
  {
    var rows := TodaysRows(table, today);
    SubseqLength(rows, table.rows);
    var people := Map(PersonOf, rows);
    assert forall p :: p in people <==> exists d :: d in rows && p == PersonOf(d) by {
      forall p | p in people
        ensures exists d :: d in rows && p == PersonOf(d)
      {
        var i :| 0 <= i < |people| && people[i] == p;
        assert rows[i] in rows;
      }
    }
    BirthdayCheck(people, |people|)
  }

  /** The birthday count is the number of rows whose month and day are today's. */
  lemma {:induction false} BirthdayCountIsCount(table: CleanedTable, today: Date)
    requires table.hasBirthColumns
    ensures CheckTodaysBirthdays(table, today).count ==
      Count(table.rows, (d: DatedRecord) => BornOn(d, today))
  {
    FilterCount(table.rows, (d: DatedRecord) => BornOn(d, today));
  }

  /** Only the run date's month and day matter, not its year. */
  lemma CheckIgnoresYear(table: CleanedTable, today: Date, other: Date)
    requires today.month == other.month && today.day == other.day
    ensures CheckTodaysBirthdays(table, today) == CheckTodaysBirthdays(table, other)
  {
    FilterAgrees(table.rows, (d: DatedRecord) => BornOn(d, today), (d: DatedRecord) => BornOn(d, other));
  }

  /** Someone born on 29 February is never listed on a run date in a common year. */
  lemma LeapDayMissedInCommonYears(d: DatedRecord, today: Date)
    requires d.parsed.Some? && d.parsed.value.month == 2 && d.parsed.value.day == 29
    requires IsCalendarDate(today) && !IsLeapYear(today.year)
    ensures !BornOn(d, today)
  {
    assert DaysInMonth(today.year, 2) == 28;
  }

  /** Without the month and day columns the list is empty. */
  lemma MissingColumnsGiveNobody(rows: seq<DatedRecord>, today: Date)
    ensures CheckTodaysBirthdays(CleanedTable(false, rows), today) == BirthdayCheck([], 0)
  {
  }

  /** Two rows born on 15 January and one on 20 May: a run on 15 January of any year
      lists the two, in table order. */
  lemma JanuaryFifteenth(a: Record, b: Record, c: Record, year: int)
    ensures
      var rows := [DatedRecord(a, Some(Date(1990, 1, 15))), DatedRecord(b, Some(Date(1985, 5, 20))),
                   DatedRecord(c, Some(Date(2001, 1, 15)))];
      CheckTodaysBirthdays(CleanedTable(true, rows), Date(year, 1, 15)) ==
        BirthdayCheck([Person(a.name, a.email), Person(c.name, c.email)], 2)
  {
    var x, y, z := DatedRecord(a, Some(Date(1990, 1, 15))), DatedRecord(b, Some(Date(1985, 5, 20))),
                   DatedRecord(c, Some(Date(2001, 1, 15)));
    var born := (d: DatedRecord) => BornOn(d, Date(year, 1, 15));
    assert [x, y, z][1..] == [y, z];
    assert [y, z][1..] == [z];
    assert Filter([z], born) == [z];
    assert Filter([x, y, z], born) == [x, z];
  }
}

=== FILE: seqs.dfy ===
/** Order-preserving filters and maps over sequences, and the subsequence relation
    they establish. Every stage of the cleaning pipeline is one of these. */
module Seqs {

  /** `a` is obtained from `b` by deleting zero or more elements, keeping order. */
  predicate IsSubseq<T(==)>(a: seq<T>, b: seq<T>)
    decreases |b|
  {
    |a| == 0 ||
    (|b| > 0 && ((a[0] == b[0] && IsSubseq(a[1..], b[1..])) || IsSubseq(a, b[1..])))
  }

  /** The elements of `s` satisfying `p`, in their original order. */
  function Filter<T(!new)>(s: seq<T>, p: T -> bool): (r: seq<T>)
    ensures |r| <= |s|
    ensures forall i :: 0 <= i < |r| ==> p(r[i])
    ensures forall x :: x in r <==> x in s && p(x)
    ensures forall x :: multiset(r)[x] == if p(x) then multiset(s)[x] else 0
  {
    if |s| == 0 then []
    else
      assert s == [s[0]] + s[1..];
      if p(s[0]) then [s[0]] + Filter(s[1..], p) else Filter(s[1..], p)
  }

  /** `f` applied to every element of `s`. */
  function Map<T, U>(f: T -> U, s: seq<T>): (r: seq<U>)
    ensures |r| == |s|
    ensures forall i :: 0 <= i < |s| ==> r[i] == f(s[i])
  {
    seq(|s|, i requires 0 <= i < |s| => f(s[i]))
  }

  /** Every sequence is a subsequence of itself. */
  lemma {:induction false} SubseqRefl<T>(s: seq<T>)
    ensures IsSubseq(s, s)
    decreases |s|
  {
    if |s| > 0 {
      SubseqRefl(s[1..]);
    }
  }

  /** Deleting elements twice is deleting elements once. */
  lemma {:induction false} SubseqTrans<T>(a: seq<T>, b: seq<T>, c: seq<T>)
    requires IsSubseq(a, b) && IsSubseq(b, c)
    ensures IsSubseq(a, c)
    decreases |c|
  {
    if |a| > 0 {
      if IsSubseq(b, c[1..]) {
        SubseqTrans(a, b, c[1..]);
      } else {
        assert b[0] == c[0] && IsSubseq(b[1..], c[1..]);
        if a[0] == b[0] && IsSubseq(a[1..], b[1..]) {
          SubseqTrans(a[1..], b[1..], c[1..]);
        } else {
          SubseqTrans(a, b[1..], c[1..]);
        }
      }
    }
  }

  /** A subsequence only contains elements of the sequence it was taken from. */
  lemma {:induction false} SubseqMembers<T>(a: seq<T>, b: seq<T>)
    requires IsSubseq(a, b)
    ensures forall x :: x in a ==> x in b
    decreases |b|
  {
    if |a| > 0 {
      if IsSubseq(a, b[1..]) {
        SubseqMembers(a, b[1..]);
      } else {
        SubseqMembers(a[1..], b[1..]);
        assert a == [a[0]] + a[1..];
      }
    }
  }

  /** A filter only deletes elements. */
  lemma {:induction false} FilterIsSubseq<T(!new)>(s: seq<T>, p: T -> bool)
    ensures IsSubseq(Filter(s, p), s)
    decreases |s|
  {
    if |s| > 0 {
      FilterIsSubseq(s[1..], p);
      var r := Filter(s, p);
      if p(s[0]) {
        assert r[0] == s[0] && r[1..] == Filter(s[1..], p);
      }
    }
  }

  /** Every element of a subsequence satisfies what every element of the sequence does. */
  lemma SubseqKeepsAll<T>(a: seq<T>, b: seq<T>, p: T -> bool)
    requires IsSubseq(a, b) && forall i :: 0 <= i < |b| ==> p(b[i])
    ensures forall i :: 0 <= i < |a| ==> p(a[i])
  {
    SubseqMembers(a, b);
    forall i | 0 <= i < |a|
      ensures p(a[i])
    {
      assert a[i] in b;
    }
  }

  /** Mapping both sides keeps a subsequence a subsequence. */
  lemma {:induction false} MapKeepsSubseq<T, U>(f: T -> U, a: seq<T>, b: seq<T>)
    requires IsSubseq(a, b)
    ensures IsSubseq(Map(f, a), Map(f, b))
    decreases |b|
  {
    if |a| > 0 {
      var fa, fb := Map(f, a), Map(f, b);
      assert Map(f, b[1..]) == fb[1..];
      if IsSubseq(a, b[1..]) {
        MapKeepsSubseq(f, a, b[1..]);
      } else {
        MapKeepsSubseq(f, a[1..], b[1..]);
        assert Map(f, a[1..]) == fa[1..];
      }
    }
  }

  /** Mapping a subsequence of `Map(g, b)` by `f` gives a subsequence of `b` mapped
      by the composition. */
  lemma MapAfterSubseq<T, U, V>(f: U -> V, g: T -> U, h: T -> V, a: seq<U>, b: seq<T>)
    requires IsSubseq(a, Map(g, b))
    requires forall x :: h(x) == f(g(x))
    ensures IsSubseq(Map(f, a), Map(h, b))
  {
    MapKeepsSubseq(f, a, Map(g, b));
    assert Map(f, Map(g, b)) == Map(h, b);
  }

  /** No two elements of `s` share a key. */
  predicate DistinctBy<T, K(==)>(s: seq<T>, key: T -> K) {
    forall k, l :: 0 <= k < l < |s| ==> key(s[k]) != key(s[l])
  }

  /** Deleting elements keeps keys distinct. */
  lemma {:induction false} SubseqKeepsDistinct<T, K>(a: seq<T>, b: seq<T>, key: T -> K)
    requires IsSubseq(a, b) && DistinctBy(b, key)
    ensures DistinctBy(a, key)
    decreases |b|
  {
    if |a| > 0 {
      assert DistinctBy(b[1..], key);
      if IsSubseq(a, b[1..]) {
        SubseqKeepsDistinct(a, b[1..], key);
      } else {
        SubseqKeepsDistinct(a[1..], b[1..], key);
        SubseqMembers(a[1..], b[1..]);
        forall l | 0 < l < |a|
          ensures key(a[0]) != key(a[l])
        {
          assert a[l] == a[1..][l - 1];
          assert a[l] in a[1..];
          var m :| 0 <= m < |b[1..]| && b[1..][m] == a[l];
          assert b[m + 1] == a[l];
        }
      }
    }
  }

  /** A subsequence is never longer than the sequence it was taken from. */
  lemma {:induction false} SubseqLength<T>(a: seq<T>, b: seq<T>)
    requires IsSubseq(a, b)
    ensures |a| <= |b|
    decreases |b|
  {
    if |a| > 0 {
      if IsSubseq(a, b[1..]) {
        SubseqLength(a, b[1..]);
      } else {
        SubseqLength(a[1..], b[1..]);
      }
    }
  }

  /** How many elements of `s` satisfy `p`, counted from the back. */
  function Count<T>(s: seq<T>, p: T -> bool): (n: nat)
    ensures n <= |s|
    decreases |s|
  {
    if |s| == 0 then 0
    else Count(s[..|s| - 1], p) + (if p(s[|s| - 1]) then 1 else 0)
  }

  /** Counting over a concatenation adds the counts. */
  lemma {:induction false} CountAppend<T>(a: seq<T>, b: seq<T>, p: T -> bool)
    ensures Count(a + b, p) == Count(a, p) + Count(b, p)
    decreases |b|
  {
    if |b| > 0 {
      var n := |b| - 1;
      assert (a + b)[..|a + b| - 1] == a + b[..n];
      assert (a + b)[|a + b| - 1] == b[n];
      CountAppend(a, b[..n], p);
    } else {
      assert a + b == a;
    }
  }

  lemma FilterCons<T(!new)>(s: seq<T>, p: T -> bool)
    requires |s| > 0
    ensures Filter(s, p) == (if p(s[0]) then [s[0]] else []) + Filter(s[1..], p)
  {
  }

  lemma CountCons<T>(s: seq<T>, p: T -> bool)
    requires |s| > 0
    ensures Count(s, p) == (if p(s[0]) then 1 else 0) + Count(s[1..], p)
  {
    assert s == [s[0]] + s[1..];
    CountAppend([s[0]], s[1..], p);
    assert [s[0]][..0] == [];
  }

  /** A filter keeps exactly as many elements as satisfy its predicate. */
  lemma {:induction false} FilterCount<T(!new)>(s: seq<T>, p: T -> bool)
    ensures |Filter(s, p)| == Count(s, p)
    decreases |s|
  {
    if |s| > 0 {
      FilterCount(s[1..], p);
      FilterCons(s, p);
      CountCons(s, p);
    }
  }

  /** Filters by predicates that agree everywhere are equal. */
  lemma {:induction false} FilterAgrees<T(!new)>(s: seq<T>, p: T -> bool, q: T -> bool)
    requires forall x :: p(x) == q(x)
    ensures Filter(s, p) == Filter(s, q)
    decreases |s|
  {
    if |s| > 0 {
      FilterAgrees(s[1..], p, q);
    }
  }

  /** Nothing is counted when no element satisfies the predicate. */
  lemma {:induction false} CountNone<T>(s: seq<T>, p: T -> bool)
    requires forall x :: x in s ==> !p(x)
    ensures Count(s, p) == 0
    decreases |s|
  {
    if |s| > 0 {
      var n := |s| - 1;
      assert forall x :: x in s[..n] ==> x in s;
      CountNone(s[..n], p);
      assert s[n] in s;
    }
  }
}

=== FILE: text.dfy ===
/** String primitives the cleaner and the file-type choice rely on: Python's
    `str.strip()`, `str.title()`, `str.lower()`, splitting on a separator and
    finding a character. */
module Text {
  import opened Wrappers

  /** The characters Python's `str.isspace` accepts, which `str.strip()` removes. */
  predicate IsSpace(c: char) {
    c == ' ' || ('\t' <= c <= '\r') || ('\U{1c}' <= c <= '\U{1f}') ||
    c == '\U{85}' || c == '\U{a0}' || c == '\U{1680}' || ('\U{2000}' <= c <= '\U{200a}') ||
    c == '\U{2028}' || c == '\U{2029}' || c == '\U{202f}' || c == '\U{205f}' || c == '\U{3000}'
  }

  /** Number of whitespace characters at the start of `s`. */
  function LeadLen(s: string): (n: nat)
    ensures n <= |s|
    ensures forall i :: 0 <= i < n ==> IsSpace(s[i])
    ensures n < |s| ==> !IsSpace(s[n])
  {
    if |s| > 0 && IsSpace(s[0]) then 1 + LeadLen(s[1..]) else 0
  }

  /** Number of whitespace characters at the end of `s`. */
  function TrailLen(s: string): (n: nat)
    ensures n <= |s|
    ensures forall i :: |s| - n <= i < |s| ==> IsSpace(s[i])
    ensures n < |s| ==> !IsSpace(s[|s| - n - 1])
  {
    if |s| > 0 && IsSpace(s[|s| - 1]) then 1 + TrailLen(s[..|s| - 1]) else 0
  }

  /** Python's `s.strip()`: `s` without its leading and trailing whitespace. The
      result is the infix of `s` starting after the leading whitespace, everything
      cut off is whitespace, and the result neither starts nor ends with whitespace. */
  function Strip(s: string): (r: string)
    ensures LeadLen(s) + |r| <= |s|
    ensures r == s[LeadLen(s)..LeadLen(s) + |r|]
    ensures forall i :: 0 <= i < LeadLen(s) ==> IsSpace(s[i])
    ensures forall i :: LeadLen(s) + |r| <= i < |s| ==> IsSpace(s[i])
    ensures |r| > 0 ==> !IsSpace(r[0]) && !IsSpace(r[|r| - 1])
  {
    var t := s[LeadLen(s)..];
    t[..|t| - TrailLen(t)]
  }

  /** Stripping is idempotent. */
  lemma StripIdempotent(s: string)
    ensures Strip(Strip(s)) == Strip(s)
  {
    var r := Strip(s);
    assert LeadLen(r) == 0;
    assert TrailLen(r) == 0;
  }

  /** A decimal digit `0`-`9`. */
  predicate IsDigit(c: char) { '0' <= c <= '9' }

  predicate IsUpper(c: char) { 'A' <= c <= 'Z' }
  predicate IsLower(c: char) { 'a' <= c <= 'z' }

  /** An ASCII letter: a cased character in the sense of Python's `str.title()`, and
      the `[a-zA-Z]` class of the address pattern. */
  predicate IsCased(c: char) { IsUpper(c) || IsLower(c) }

  function Upper(c: char): (u: char) {
    if IsLower(c) then (c as int - 32) as char else c
  }

  function Lower(c: char): (l: char) {
    if IsUpper(c) then (c as int + 32) as char else c
  }

  /** Python's `s.lower()` on ASCII letters. */
  function LowerString(s: string): (r: string)
    ensures |r| == |s|
    ensures forall i :: 0 <= i < |s| ==> r[i] == Lower(s[i])
  {
    seq(|s|, i requires 0 <= i < |s| => Lower(s[i]))
  }

  /** Whether character `i` of `s` continues a run of cased characters; `prev`
      says whether the character before `s[0]` was cased. */
  predicate AfterCased(s: string, i: nat, prev: bool)
    requires i < |s|
  {
    if i == 0 then prev else IsCased(s[i - 1])
  }

  /** CPython's title-casing loop: a character is upper-cased when the character
      before it is not cased and lower-cased when it is. */
  function TitleFrom(s: string, prev: bool): (r: string)
    ensures |r| == |s|
    ensures forall i :: 0 <= i < |s| ==>
      r[i] == if AfterCased(s, i, prev) then Lower(s[i]) else Upper(s[i])
  {
    if |s| == 0 then []
    else
      var c := if prev then Lower(s[0]) else Upper(s[0]);
      var rest := TitleFrom(s[1..], IsCased(c));
      assert forall i :: 1 <= i < |s| ==> AfterCased(s[1..], i - 1, IsCased(c)) == AfterCased(s, i, prev);
      [c] + rest
  }

  /** Python's `s.title()`: every run of letters starts upper-case and continues lower-case;
      other characters are unchanged. */
  function Title(s: string): (r: string)
    ensures |r| == |s|
    ensures forall i :: 0 <= i < |s| && IsCased(s[i]) && (i == 0 || !IsCased(s[i - 1])) ==> IsUpper(r[i])
    ensures forall i :: 0 < i < |s| && IsCased(s[i]) && IsCased(s[i - 1]) ==> IsLower(r[i])
    ensures forall i :: 0 <= i < |s| && !IsCased(s[i]) ==> r[i] == s[i]
    ensures forall i :: 0 <= i < |s| ==> Lower(r[i]) == Lower(s[i])
  {
    TitleFrom(s, false)
  }

  /** Title-casing twice is title-casing once. */
  lemma TitleIdempotent(s: string)
    ensures Title(Title(s)) == Title(s)
  {
    var t := Title(s);
    var tt := Title(t);
    forall i | 0 <= i < |s|
      ensures tt[i] == t[i]
    {
      assert AfterCased(t, i, false) == AfterCased(s, i, false);
    }
  }

  /** Python's `s.split(sep)`: the maximal pieces of `s` between occurrences of `sep`. */
  function Split(s: string, sep: char): (parts: seq<string>)
    ensures |parts| >= 1
    ensures forall k :: 0 <= k < |parts| ==> sep !in parts[k]
  {
    if |s| == 0 then [""]
    else
      var rest := Split(s[1..], sep);
      if s[0] == sep then [""] + rest
      else [[s[0]] + rest[0]] + rest[1..]
  }

  /** Python's `sep.join(parts)`. */
  function Join(parts: seq<string>, sep: char): (s: string)
    requires |parts| >= 1
  {
    if |parts| == 1 then parts[0] else parts[0] + [sep] + Join(parts[1..], sep)
  }

  /** Joining the pieces of a split gives back the original string. */
  lemma {:induction false} JoinSplit(s: string, sep: char)
    ensures Join(Split(s, sep), sep) == s
  {
    if |s| > 0 {
      JoinSplit(s[1..], sep);
      var rest := Split(s[1..], sep);
      if s[0] != sep {
        var parts := Split(s, sep);
        if |rest| == 1 {
          assert parts == [[s[0]] + rest[0]];
        } else {
          assert parts[1..] == rest[1..];
          assert Join(parts, sep) == [s[0]] + rest[0] + [sep] + Join(rest[1..], sep);
        }
      }
    }
  }

  lemma JoinFirstChar(parts: seq<string>, sep: char)
    requires |parts| >= 1 && |parts[0]| > 0
    ensures Join(parts, sep) == [parts[0][0]] + Join([parts[0][1..]] + parts[1..], sep)
  {
    var shorter := [parts[0][1..]] + parts[1..];
    if |parts| > 1 {
      assert shorter[1..] == parts[1..];
    }
  }

  lemma JoinEmptyFirst(parts: seq<string>, sep: char)
    requires |parts| > 1 && parts[0] == ""
    ensures Join(parts, sep) == [sep] + Join(parts[1..], sep)
  {
  }

  /** Splitting a join of separator-free pieces gives back the pieces. */
  lemma {:induction false} SplitJoin(parts: seq<string>, sep: char)
    requires |parts| >= 1
    requires forall k :: 0 <= k < |parts| ==> sep !in parts[k]
    ensures Split(Join(parts, sep), sep) == parts
    decreases |parts|, |parts[0]|
  {
    var joined := Join(parts, sep);
    if |parts[0]| > 0 {
      var p0 := parts[0];
      var shorter := [p0[1..]] + parts[1..];
      assert shorter[0] == p0[1..] && shorter[1..] == parts[1..];
      SplitJoin(shorter, sep);
      JoinFirstChar(parts, sep);
      assert joined[0] == p0[0] && joined[1..] == Join(shorter, sep);
      assert p0 == [p0[0]] + p0[1..];
      assert [[p0[0]] + p0[1..]] + parts[1..] == parts;
    } else if |parts| > 1 {
      SplitJoin(parts[1..], sep);
      JoinEmptyFirst(parts, sep);
      assert joined[0] == sep && joined[1..] == Join(parts[1..], sep);
      assert [""] + parts[1..] == parts;
    }
  }

  /** Three separator-free pieces joined by the separator split back into those pieces. */
  lemma SplitThree(a: string, b: string, c: string, sep: char)
    requires sep !in a && sep !in b && sep !in c
    ensures Split(a + [sep] + b + [sep] + c, sep) == [a, b, c]
  {
    var parts := [a, b, c];
    assert parts[1..] == [b, c] && [b, c][1..] == [c];
    assert Join([c], sep) == c;
    assert Join([b, c], sep) == b + [sep] + c;
    assert Join(parts, sep) == a + [sep] + b + [sep] + c;
    SplitJoin(parts, sep);
  }

  /** A string without the separator splits into the one piece it is. */
  lemma SplitWithoutSep(s: string, sep: char)
    requires sep !in s
    ensures Split(s, sep) == [s]
  {
    SplitJoin([s], sep);
  }

  /** Position of the first `c` in `s`. */
  function FirstIndex(s: string, c: char): (r: Option<nat>)
    ensures r.Some? ==> r.value < |s| && s[r.value] == c && c !in s[..r.value]
    ensures r.None? ==> c !in s
  {
    if |s| == 0 then None
    else if s[0] == c then Some(0)
    else
      match FirstIndex(s[1..], c)
      case None => None
      case Some(k) =>
        assert s[..k + 1] == [s[0]] + s[1..][..k];
        Some(k + 1)
  }

  /** Position of the last `c` in `s`. */
  function LastIndex(s: string, c: char): (r: Option<nat>)
    ensures r.Some? ==> r.value < |s| && s[r.value] == c && c !in s[r.value + 1..]
    ensures r.None? ==> c !in s
  {
    if |s| == 0 then None
    else if s[|s| - 1] == c then Some(|s| - 1)
    else
      match LastIndex(s[..|s| - 1], c)
      case None => None
      case Some(k) =>
        assert s[k + 1..] == s[..|s| - 1][k + 1..] + [s[|s| - 1]];
        Some(k)
  }
}

=== FILE: wrappers.dfy ===
/** Failure-carrying datatypes shared by the whole model. */
module Wrappers {

  /** A value that may be absent: a missing table cell, a date that did not parse. */
  datatype Option<+T> = None | Some(value: T) {

    /** The carried value, or `default` when there is none. */
    function GetOr(default: T): (v: T) {
      match this
      case Some(v) => v
      case None => default
    }
  }

  /** The outcome of a step that either produces a value or raises an error. */
  datatype Result<+R, +E> = Success(value: R) | Failure(error: E)
}
